=== FILE: README.md ===
# StudyBuddy study tools, modelled in Dafny

StudyBuddy is a Next.js study app. A note's text is summarised by a language
model, and the summary feeds a flashcard deck, a mind map and a generated quiz.
Beside these sit an editable "agent plan" of processing steps, a study-task
manager and a notes list. This project models the logic of those views:

- **Common**: the JavaScript semantics the views lean on. This covers
  `String.prototype.trim` and `\s`, ASCII `toLowerCase`, `includes`,
  `Math.round` of a ratio and `Number` to string, plus `map`/`filter`
  over sequences.
- **Segmentation**: `String.prototype.split` with the three regular
  expressions of the flashcard and mind-map views. It is written as a
  character scanner and proved to cut the text losslessly.
- **Flashcards**: card extraction with its paragraph fallback, and the deck
  controller (`Deck`: next, previous, shuffle, reset, auto-play countdown,
  keyboard).
- **Mindmap**: key-point extraction, the node and edge graph, and node
  selection (`Selection`).
- **QuizGenerator**: the quiz prompt, JSON extraction from the model's reply
  and validation of every question. **Quiz** covers scoring, grades and the
  quiz session (`QuizSession`: configure, generate, answer, submit, reset,
  retake).
- **AgentPlan**: the plan steps and their editing (`PlanMonitor`), the
  simulated execution run and the preference panel.
- **StudyItems**: the task manager of the home page (`StudyManager`), with
  search, category filters, toggles and counters.
- **Notes**: the notes page (`NotesPage`): load, create, delete and title
  search.
- **Summarizer**: the summariser page (`SummarizerPage`). It rebuilds the
  chat history from stored summaries, builds the summary prompt, submits and
  saves.
- **InputPanel**: the input panel (`Panel`). It handles drag and drop, PDF
  text extraction page by page, the truncated read-only display and the
  submit guard.

The language model, `fetch`, `JSON.parse`, PDF parsing and the clock are
outside the model. Their outcomes are parameters of the operations that use
them:

- the model's reply is a `Result` or an `Option`;
- the parser is a function `string -> Result<Json, string>`;
- a PDF is the sequence of its pages' text items;
- a clock reading is an `int` (`Date.now()`) or, where the source formats it, a string;
  the formatting of stored times is a function `string -> string`.

## Model

| member | source | states |
|---|---|---|
| Common.LeadingSpaces | src/components/Flashcards.js:12 | the leading run `trim` removes: all white space and followed by a non-space |
| Common.TrailingSpaces | src/components/Flashcards.js:12 | the trailing run `trim` removes: all white space and preceded by a non-space |
| Common.TrimBounds | src/components/Flashcards.js:12 | the slice kept by `trim`: white space is cut on both sides, the kept slice has no white space at either end, and an empty slice means the string was all white space |
| Common.Trim | src/components/Flashcards.js:12 | `trim` returns a trimmed string no longer than its input, and it is empty exactly when the input is all white space |
| Common.TrimKeepsChars | src/components/Mindmap.js:57 | every character of a trimmed string occurs in the original |
| Common.TrimmedFixpoint | src/components/Flashcards.js:16 | trimming an already trimmed string changes nothing |
| Common.LowerChar | src/app/page.js:116 | `toLowerCase` maps an ASCII capital to its small letter and leaves every other character alone |
| Common.Lower | src/app/page.js:116-117 | lower-casing works character by character and keeps the length |
| Common.LowerIdempotent | src/app/page.js:116-117 | lower-casing twice is the same as once |
| Common.CountNoun | src/app/page.js:317 | the singular word is chosen exactly when the count is 1 |
| Common.IncludesAt | src/app/page.js:116 | `includes` holds exactly when the needle occurs at some offset |
| Common.IncludesEmpty | src/app/page.js:116 | every string includes the empty search term |
| Common.RoundDiv | src/components/Quiz.js:183 | `Math.round(num / den)` on exact ratios: the result is the integer nearest the ratio, with halves rounded up |
| Common.RoundUnique | src/components/Quiz.js:183 | that rounding has exactly one result |
| Common.Percent | src/components/Quiz.js:183 | `Math.round(part / whole * 100)`: the result is the whole number nearest the exact percentage, halves rounded up; it lies in 0..100, is 100 for a full score and 0 for no score |
| Common.DigitChar | src/components/Mindmap.js:87 | a decimal digit value becomes a digit character |
| Common.NatToString | src/components/Mindmap.js:87 | a number's decimal text is a nonempty run of digits, one digit long exactly below 10 |
| Common.NatToStringInjective | src/components/Mindmap.js:87 | different numbers have different decimal texts, so generated ids never collide |
| Common.Max | src/components/AgentPlanMonitor.js:436 | `Math.max` of two numbers is one of them and at least both |
| Common.Map | src/components/Flashcards.js:16 | `map` keeps the length and applies the function at every index |
| Common.Filter | src/components/Flashcards.js:17-18 | `filter` keeps only elements of the input that satisfy the predicate |
| Common.FilterIsSubsequence | src/components/Flashcards.js:17-18 | `filter` keeps the input's order, drops no element that satisfies the predicate, and keeps each such element as many times as it occurs |
| Common.FilterAll | src/app/page.js:119 | a filter every element passes returns its input |
| Common.PrefixIsSubsequence | src/components/Mindmap.js:60 | `slice(0, k)` of an ordered selection is still an ordered selection |
| Common.Count | src/app/page.js:128-129 | the length of a filtered list is at most the list's length |
| Common.CountSplit | src/app/page.js:128-129 | counts of a predicate and its negation add up to the list's length |
| Common.NoneKept | src/app/notes/page.jsx:88 | a filter nothing passes returns the empty list |
| Segmentation.Run | src/components/Flashcards.js:15 | a greedy `\s*` or `\d+` run ends at the first character outside the class |
| Segmentation.LastNewline | src/components/Flashcards.js:15 | the `(?<=\n)` look-behind finds the last newline before a position, or reports that there is none |
| Segmentation.MatchAt | src/components/Flashcards.js:15 | a separator match at a position consumes at least one character and stays inside the text |
| Segmentation.SplitFrom | src/components/Flashcards.js:15 | the pieces and separators of a split, read back in order, are the scanned text; only the last piece has no separator |
| Segmentation.Split | src/components/Flashcards.js:15 | `split` yields at least one piece and loses no character |
| Segmentation.Pieces | src/components/Flashcards.js:15 | the pieces of a split, in order |
| Segmentation.TrimmedPieces | src/components/Flashcards.js:15-16 | `.map(s => s.trim())`: one element per piece of the split, each the trimmed piece at the same index |
| Flashcards.SourceText | src/components/Flashcards.js:12-13 | the summary wins when it is not blank; otherwise the input is used, and the text is empty only when both are blank |
| Flashcards.PrimaryCards | src/components/Flashcards.js:14-18 | the sentence or list-item cards are the trimmed pieces longer than ten characters: each card is one, every such piece is a card as many times as it occurs, and the order is kept |
| Flashcards.ParagraphCards | src/components/Flashcards.js:20-23 | the paragraph cards are the nonempty trimmed blank-line pieces, with no length filter: each card is one, every such piece is a card as many times as it occurs, and the order is kept |
| Flashcards.Cards | src/components/Flashcards.js:11-26 | every card is trimmed and nonempty, and there are no cards when summary and input are both blank |
| Flashcards.CardsChoice | src/components/Flashcards.js:19-24 | three or more sentence cards are kept as they are; fewer fall back to the paragraph split |
| Flashcards.NextIndex | src/components/Flashcards.js:63-68 | the next index stays in range and wraps from the last card to the first |
| Flashcards.PrevIndex | src/components/Flashcards.js:70-75 | the previous index stays in range and wraps from the first card to the last |
| Flashcards.PrevUndoesNext | src/components/Flashcards.js:63-75 | previous undoes next and next undoes previous |
| Flashcards.Advance | src/components/Flashcards.js:53-55 | repeated auto-advance stays in range |
| Flashcards.AdvanceWraps | src/components/Flashcards.js:53-55 | k advances move k places forward modulo the deck size |
| Flashcards.FullCycle | src/components/Flashcards.js:53-55 | advancing through the whole deck returns to the starting card |
| Flashcards.Countdown | src/components/Flashcards.js:45-52 | the auto-play countdown goes down by one each second and restarts at the full interval after reaching 1 |
| Flashcards.Identity | src/components/Flashcards.js:36 | the initial order lists every card index in place |
| Flashcards.ShownCardAsWritten | src/components/Flashcards.js:126-127 | the card shown as written: `order[i] \|\| i` falls back to the position whenever the order holds card 0 |
| Flashcards.ShownCardAsWrittenSkipsCardZero | src/components/Flashcards.js:126-127 | after the shuffle `[1, 0]` both positions show card 1, and card 0 is never shown |
| Flashcards.ShownCard | src/components/Flashcards.js:126-127 | the corrected lookup shows the card the order holds at the position |
| Flashcards.ShownCardCoversDeck | src/components/Flashcards.js:77-81 | under any shuffle every card is shown at some position |
| Flashcards.PermutationInRange | src/components/Flashcards.js:77-81 | a shuffled order only holds valid card indices |
| Flashcards.Deck.constructor | src/components/Flashcards.js:28-38 | a new deck starts at card 0 in identity order, auto-play off, 3000 ms speed and 3 seconds left |
| Flashcards.Deck.Shown | src/components/Flashcards.js:126-127 | the shown card is the card the shuffled order holds at the current position, and a valid card |
| Flashcards.Deck.Next | src/components/Flashcards.js:63-68 | moves to the next index, restarts the countdown while auto-play is on, and does nothing on an empty deck |
| Flashcards.Deck.Prev | src/components/Flashcards.js:70-75 | moves to the previous index, restarts the countdown while auto-play is on, and does nothing on an empty deck |
| Flashcards.Deck.Shuffle | src/components/Flashcards.js:77-81 | installs a permutation of the cards and goes back to the first position |
| Flashcards.Deck.Reset | src/components/Flashcards.js:83-87 | restores the identity order, goes to the first card and stops auto-play |
| Flashcards.Deck.ToggleAutoPlay | src/components/Flashcards.js:89-94 | flips auto-play and restarts the countdown when switching on |
| Flashcards.Deck.SetSpeed | src/components/Flashcards.js:215-231 | sets a speed the deck runs at (the 3000 ms default or one of the three buttons); a different speed restarts the countdown of a running nonempty deck, while choosing the current speed changes nothing, since the countdown effect at lines 40-61 only re-runs when its dependencies change |
| Flashcards.Deck.Tick | src/components/Flashcards.js:45-52 | one second of auto-play follows the countdown function |
| Flashcards.Deck.AutoAdvance | src/components/Flashcards.js:53-55 | auto-play moves to the next card |
| Flashcards.Deck.KeyPress | src/components/Flashcards.js:96-111 | right arrow and space go forward, left arrow goes back, Enter toggles auto-play, and other keys do nothing |
| Mindmap.PiecesAreSingleLines | src/components/Mindmap.js:56 | splitting at sentence ends and newline runs leaves no newline inside a piece |
| Mindmap.TrimmedPiecesAreSingleLines | src/components/Mindmap.js:56-57 | no trimmed piece of the split holds a newline |
| Mindmap.IsPoint | src/components/Mindmap.js:58 | a point is longer than ten characters and holds an ASCII letter |
| Mindmap.Points | src/components/Mindmap.js:52-62 | exactly the first twelve qualifying pieces, or all of them when fewer qualify: trimmed single-line points, each longer than ten characters with a letter, in their order; none for an empty summary |
| Mindmap.PointIdsDistinct | src/components/Mindmap.js:87 | point ids differ from the centre id and from each other |
| Mindmap.PointId | src/components/Mindmap.js:87 | the id `point-` followed by the index |
| Mindmap.EdgeId | src/components/Mindmap.js:102 | the id `edge-` followed by the index |
| Mindmap.Label | src/components/Mindmap.js:90 | labels over 120 characters are cut to 120 plus "..."; shorter ones are kept |
| Mindmap.CenterLabel | src/components/Mindmap.js:71 | the centre label is the nonempty title when there is one, and never empty |
| Mindmap.Radius | src/components/Mindmap.js:78 | the radius is 200 up to eight points and grows by 25 per point beyond |
| Mindmap.Nodes | src/components/Mindmap.js:65-99 | no points, no nodes; otherwise a centre node first and one satellite per point carrying the point's full text |
| Mindmap.Edges | src/components/Mindmap.js:101-111 | one edge per point, from the centre to that point's node |
| Mindmap.GraphWellFormed | src/components/Mindmap.js:81-111 | node ids are distinct and every edge joins the centre to the node of its own point |
| Mindmap.Highlight | src/components/Mindmap.js:135-140 | a node is drawn selected exactly when its id is the selected one |
| Mindmap.AtMostOneSelected | src/components/Mindmap.js:135-140 | with distinct ids at most one node is drawn selected, and it is the selected one |
| Mindmap.Selection.constructor | src/components/Mindmap.js:49 | nothing is selected at first |
| Mindmap.Selection.NodeClick | src/components/Mindmap.js:123-129 | clicking the selected node deselects it, and clicking any other node selects that node |
| Mindmap.Selection.PaneClick | src/components/Mindmap.js:131-133 | clicking the pane clears the selection |
| QuizGenerator.Field | src/components/Quiz.js:133 | a property lookup succeeds exactly on an object that has the key |
| QuizGenerator.FirstIndex | src/components/Quiz.js:120 | the first `{` from a position, or none |
| QuizGenerator.LastIndex | src/components/Quiz.js:120 | the last `}` before a position, or none |
| QuizGenerator.JsonSpan | src/components/Quiz.js:120-123 | the greedy `/\{[\s\S]*\}/` match runs from the first `{` to the last `}` after it, and fails exactly when there is no such pair |
| QuizGenerator.ExtractJson | src/components/Quiz.js:120-125 | the extracted text is that span, at least two characters, opening with `{` and closing with `}` |
| QuizGenerator.FailureMessage | src/components/Quiz.js:145-148 | every failure reaches the page prefixed with "Quiz generation failed: " |
| QuizGenerator.CheckQuestion | src/components/Quiz.js:132-142 | a question passes exactly when its five fields are truthy, its choices are a nonempty array, and the correct answer is among them; a refusal names the question's index |
| QuizGenerator.FirstFailure | src/components/Quiz.js:132-142 | no refusal exactly when every question from the position on is valid; otherwise the refusal is for the first bad question |
| QuizGenerator.Generate | src/components/Quiz.js:113-148 | a failed call is reported as such, and every question of an accepted reply is valid |
| QuizGenerator.GenerateAcceptsExactly | src/components/Quiz.js:113-148 | the generator succeeds exactly when the call succeeds, a JSON span is found, it parses, it has a `questions` array and every question is valid; what it returns is that array |
| QuizGenerator.RefusalNamesFirstBadQuestion | src/components/Quiz.js:132-142 | a refusal with an index names an invalid question, and every question before it is valid |
| QuizGenerator.NoSpanIsRefused | src/components/Quiz.js:120-123 | a reply without a `{...}` span is refused as having no JSON |
| QuizGenerator.PromptEmbedsSummary | src/components/Quiz.js:53-111 | the quiz prompt carries the summary verbatim right after the fixed header |
| QuizGenerator.PromptAsksForCount | src/components/Quiz.js:53-111 | the quiz prompt asks for the configured number of questions |
| QuizGenerator.DifficultyInstruction | src/components/Quiz.js:56-60 | the difficulty instruction interpolates as "undefined" exactly for a difficulty other than easy, medium or hard |
| QuizGenerator.TypeInstruction | src/components/Quiz.js:62-73 | the type instruction interpolates as "undefined" exactly for a type other than mcq or true-false |
| QuizGenerator.CreatePrompt | src/components/Quiz.js:53-111 | the quiz prompt: the fixed header, the summary, then the requirements; PromptEmbedsSummary and PromptAsksForCount state what it carries |
| Quiz.CountCorrect | src/components/Quiz.js:181-182 | the count of correct answers is at most the count of questions; it is full exactly when every answer strictly equals its correct choice, and zero exactly when none does |
| Quiz.Score | src/components/Quiz.js:181-182 | the score is full exactly when every question is answered correctly |
| Quiz.PercentBelowFull | src/components/Quiz.js:183 | below 200 questions, any wrong answer keeps the percentage under 100 |
| Quiz.PerfectIffAllCorrect | src/components/Quiz.js:181-183 | below 200 questions the percentage is 100 exactly when every answer is correct |
| Quiz.PerfectWithOneWrong | src/components/Quiz.js:183 | with 200 questions and one wrong answer the percentage still rounds to 100 |
| Quiz.GradeOf | src/components/Quiz.js:186-192 | each grade holds exactly on its percentage band: A+ from 90, A from 80, B from 70, C from 60, D from 50, F below |
| Quiz.GradeMonotone | src/components/Quiz.js:186-192 | a higher percentage never earns a lower grade, and the band edges fall where the source puts them |
| Quiz.GradeName | src/components/Quiz.js:186-192 | the label each grade shows, A+ to F |
| Quiz.TimeTaken | src/components/Quiz.js:184 | zero unless both times are set and nonzero; otherwise the rounded number of seconds between them |
| Quiz.TimeTakenNonNegative | src/components/Quiz.js:184 | an end no earlier than the start gives a time taken that is not negative |
| Quiz.KeysCoverRange | src/components/Quiz.js:246-256 | as many answers as questions, all at question indices, means every question is answered |
| Quiz.Range | src/components/Quiz.js:246-256 | the set of question indices |
| Quiz.RangeSize | src/components/Quiz.js:246-256 | there are as many question indices as questions |
| Quiz.QuizSession.constructor | src/components/Quiz.js:154-171 | the session starts in setup with the initial config, no quiz, no answers and no times; without a generator the initialisation error is shown |
| Quiz.QuizSession.ConfigChange | src/components/Quiz.js:197-200 | sets the one config field named and clears the error |
| Quiz.QuizSession.DismissError | src/components/Quiz.js:290 | clears the error and changes nothing else |
| Quiz.QuizSession.GenerateQuiz | src/components/Quiz.js:202-240 | with no summary or no generator the matching error is shown, nothing is sent and the quiz is unchanged; otherwise the prompt built from the configuration and the summary is sent, a refused reply or no questions shows the matching error, and on success the questions are installed, answers are cleared and the timer starts |
| Quiz.QuizSession.Install | src/components/Quiz.js:216-238 | after the generator answers: a refusal shows its failure message and an empty list the no-questions message, both leaving the quiz unchanged; otherwise the questions are installed with no answers and the timer starts |
| Quiz.QuizSession.Answer | src/components/Quiz.js:242-244 | records the choice for one question and keeps the other answers |
| Quiz.QuizSession.Submit | src/components/Quiz.js:246-256 | refuses while questions are unanswered; otherwise moves to results and stops the clock, with every question answered |
| Quiz.QuizSession.Reset | src/components/Quiz.js:258-266 | returns to the initial setup state with no error |
| Quiz.QuizSession.Retake | src/components/Quiz.js:268-273 | from results, clears the answers and restarts the same quiz with a new start time |
| Quiz.QuizSession.Scorecard | src/components/Quiz.js:178-195 | a scorecard exists exactly in the results step; its score is the number of correct answers, its total the number of questions, its percentage the rounded ratio of the two, its grade that percentage's band and its time the session's time taken |
| Quiz.PerfectScorecard | src/components/Quiz.js:178-195 | below 200 questions the results screen shows 100% exactly when every answer is correct, and then the grade A+ |
| AgentPlan.InitialSteps | src/components/AgentPlanMonitor.js:35-72 | four pending steps at zero progress with ids 1 to 4 |
| AgentPlan.MaxAsWritten | src/components/AgentPlanMonitor.js:162 | `Math.max(...ids)`: minus infinity exactly when no id is finite, otherwise at least every finite id |
| AgentPlan.NextIdAsWritten | src/components/AgentPlanMonitor.js:162 | the as-written new id, one more than that maximum; AddToEmptyPlanRepeatsId shows it repeating |
| AgentPlan.AddToEmptyPlanRepeatsId | src/components/AgentPlanMonitor.js:162 | as written, a step added to an empty plan gets id `-Infinity`, and the next added step gets the same id |
| AgentPlan.MaxId | src/components/AgentPlanMonitor.js:162 | the largest id of a nonempty plan is an id of the plan and at least every id |
| AgentPlan.NextStepId | src/components/AgentPlanMonitor.js:162 | the corrected new id is one more than the largest, or 1 for an empty plan, and is never an existing id |
| AgentPlan.NewStep | src/components/AgentPlanMonitor.js:161-169 | the added step carries the given id and starts pending at zero progress |
| AgentPlan.Replace | src/components/AgentPlanMonitor.js:152-155 | the step with the edited id is replaced by the edit and every other step is kept |
| AgentPlan.ReplaceKeepsIds | src/components/AgentPlanMonitor.js:152-155 | saving an edit keeps every position's id, so distinct ids stay distinct |
| AgentPlan.Without | src/components/AgentPlanMonitor.js:173-174 | deletion removes exactly the steps with that id and keeps every other step, as many times as it occurs, in order |
| AgentPlan.SubsequenceDistinct | src/components/AgentPlanMonitor.js:173-174 | dropping steps keeps ids distinct |
| AgentPlan.ResetAll | src/components/AgentPlanMonitor.js:183-188 | every step goes back to pending at zero progress |
| AgentPlan.ResetKeepsContent | src/components/AgentPlanMonitor.js:183-188 | a reset keeps each step's id, title, description, time and details, and resetting twice is the same as once |
| AgentPlan.Phase | src/components/AgentPlanMonitor.js:100-113 | the running step keeps its id, title and description; it is active in the first seven snapshots with progress 0, 20, ..., 100 and completed in the eighth |
| AgentPlan.Snapshot | src/components/AgentPlanMonitor.js:96-118 | every published snapshot of the run has as many steps as the plan |
| AgentPlan.SnapshotShape | src/components/AgentPlanMonitor.js:96-118 | in a snapshot, earlier steps are complete, the running step is active with progress in 20% steps until it completes, and later steps are untouched |
| AgentPlan.Execute | src/components/AgentPlanMonitor.js:96-118 | the run publishes eight snapshots per step, in order, and ends with every step completed at 100% |
| AgentPlan.Prefer | src/components/AgentPlanMonitor.js:178-180 | a preference change sets the one field named |
| AgentPlan.EstimatedSeconds | src/components/AgentPlanMonitor.js:436 | the estimate is at least 5 seconds and otherwise the whole thousands of characters |
| AgentPlan.EstimateMonotone | src/components/AgentPlanMonitor.js:436 | longer input never gives a shorter estimate |
| AgentPlan.ComplexityLevel | src/components/AgentPlanMonitor.js:442-443 | High above 5000 characters, Medium above 1000, Low otherwise, each exactly on its band |
| AgentPlan.PlanMonitor.constructor | src/components/AgentPlanMonitor.js:35-82 | the monitor starts with the initial steps, no edit and the initial preferences |
| AgentPlan.PlanMonitor.EditStep | src/components/AgentPlanMonitor.js:148-150 | opens the edit dialog on a copy of the step |
| AgentPlan.PlanMonitor.EditDraft | src/components/AgentPlanMonitor.js:483-504 | a dialog field edit changes only the draft |
| AgentPlan.PlanMonitor.CancelEdit | src/components/AgentPlanMonitor.js:508 | closes the dialog and leaves the steps alone |
| AgentPlan.PlanMonitor.SaveStep | src/components/AgentPlanMonitor.js:152-158 | writes the draft over the step with its id and closes the dialog |
| AgentPlan.PlanMonitor.AddStep | src/components/AgentPlanMonitor.js:160-171 | appends a pending default step whose id is not already in the plan |
| AgentPlan.PlanMonitor.DeleteStep | src/components/AgentPlanMonitor.js:173-176 | removes the steps with the id, after which no step has it |
| AgentPlan.PlanMonitor.ResetPlan | src/components/AgentPlanMonitor.js:183-190 | every step goes back to pending at zero progress |
| AgentPlan.PlanMonitor.InlineEdit | src/components/AgentPlanMonitor.js:354-368 | an inline title or description edit changes that field of that step only |
| AgentPlan.PlanMonitor.PreferenceChange | src/components/AgentPlanMonitor.js:178-181 | sets the preference and reports the updated preferences to the parent |
| AgentPlan.PlanMonitor.Run | src/components/AgentPlanMonitor.js:84-118 | processing leaves every step completed at 100%, after eight snapshots per step |
| StudyItems.UpdateById | src/app/page.js:91-96 | the item with the id gets the update merged in and a new time stamp; the others are kept |
| StudyItems.UpdateOnlyMatching | src/app/page.js:91-96 | an update leaves every other item alone and only touches the matching item's flag and time stamp |
| StudyItems.Merge | src/app/page.js:94 | the spread merge sets the one updated flag and the new time stamp and keeps every other field |
| StudyItems.DeleteById | src/app/page.js:101-102 | removes exactly the items with the id and keeps every other item, as many times as it occurs, in order |
| StudyItems.Find | src/app/page.js:108 | `find` returns the first item with the id, or none |
| StudyItems.ToggleComplete | src/app/page.js:107-109 | only the items with the id change, each merged with the flipped completion flag of the first one and stamped with the current time; the first one's completion flips; with no such item nothing changes |
| StudyItems.ToggleStar | src/app/page.js:111-113 | only the items with the id change, each merged with the flipped star of the first one and stamped with the current time; the first one's star flips; with no such item nothing changes |
| StudyItems.ToggleTwiceRestores | src/app/page.js:107-113 | toggling completion or the star twice restores the flag |
| StudyItems.FindByIds | src/app/page.js:108 | lookup depends only on the ids at each position |
| StudyItems.IsToday | src/app/page.js:17-22 | an item without a due date is never due today |
| StudyItems.IsOverdue | src/app/page.js:24-29 | only an open item with a due date can be overdue, and then exactly when the date is before now |
| StudyItems.MatchesSearch | src/app/page.js:116-117 | the search term, lower-cased, occurs in the lower-cased title or description |
| StudyItems.MatchesCategory | src/app/page.js:118-124 | each category filter: all, completed, pending, starred, due today or overdue |
| StudyItems.Filtered | src/app/page.js:115-126 | the shown items are, in order, exactly the items matching both the search and the category, each as many times as it occurs |
| StudyItems.FilterAllShowsEverything | src/app/page.js:115-126 | an empty search in the All category shows every item |
| StudyItems.SearchIgnoresCase | src/app/page.js:116-117 | the search is case-insensitive |
| StudyItems.CountersAddUp | src/app/page.js:128-129 | completed and pending counts add up to the number of items |
| StudyItems.CompletionRate | src/app/page.js:229 | with items, the rate is the rounded percentage of completed items; it is between 0 and 100, 0 with no items or none completed, and 100 when all are completed |
| StudyItems.FoundLabel | src/app/page.js:317 | "item" exactly for one found item, "items" otherwise |
| StudyItems.NewItem | src/app/page.js:71-77 | the new item copies the form, is neither completed nor starred, and takes its id and both time stamps from the clock |
| StudyItems.StudyManager.constructor | src/app/page.js:51-60 | no items, empty search, the All category, an empty form and the form hidden |
| StudyItems.StudyManager.Restore | src/app/page.js:62-67 | saved items replace the list and nothing else changes |
| StudyItems.StudyManager.SetSearch | src/app/page.js:145 | sets the search term only |
| StudyItems.StudyManager.SetCategory | src/app/page.js:171-211 | sets the category only |
| StudyItems.StudyManager.SetShowForm | src/app/page.js:154 | shows or hides the form only |
| StudyItems.StudyManager.EditForm | src/app/page.js:255-286 | a form edit changes that field of the draft only |
| StudyItems.StudyManager.AddItem | src/app/page.js:69-89 | a blank title changes nothing; otherwise the new item goes first, and the form is cleared and hidden |
| StudyItems.StudyManager.UpdateItem | src/app/page.js:91-99 | the list becomes the updated list |
| StudyItems.StudyManager.DeleteItem | src/app/page.js:101-105 | the list loses the items with the id |
| StudyItems.StudyManager.ToggleCompleteItem | src/app/page.js:107-109 | flips the completion of the item with the id |
| StudyItems.StudyManager.ToggleStarItem | src/app/page.js:111-113 | flips the star of the item with the id |
| Notes.WithoutNote | src/app/notes/page.jsx:56 | removes exactly the notes with the id and keeps every other note, as many times as it occurs, in order |
| Notes.FilteredNotes | src/app/notes/page.jsx:87-89 | the listed notes are, in order, exactly those whose title includes the query, ignoring case, each as many times as it occurs |
| Notes.EmptyQueryListsAll | src/app/notes/page.jsx:87-89 | an empty query lists every note |
| Notes.CollectionLabel | src/app/notes/page.jsx:105 | "note" exactly for one note, "notes" otherwise |
| Notes.View | src/app/notes/page.jsx:190-210 | the list area: no notes yet, no matching notes, or a nonempty listing |
| Notes.ViewDistinguishesEmptyStates | src/app/notes/page.jsx:190-210 | "no notes yet" shows exactly when there are no notes; "no matches" needs notes and a query; otherwise the filtered notes are listed |
| Notes.NotesPage.constructor | src/app/notes/page.jsx:34-39 | loading, with no notes, title or query |
| Notes.NotesPage.Load | src/app/notes/page.jsx:43-51 | fetched notes replace the list and loading ends, on success or failure |
| Notes.NotesPage.SetTitle | src/app/notes/page.jsx:129 | sets the new note's title only |
| Notes.NotesPage.SetQuery | src/app/notes/page.jsx:164 | sets the query only |
| Notes.NotesPage.Create | src/app/notes/page.jsx:63-85 | a blank title or a failed request changes nothing; a created note goes first and the title is cleared |
| Notes.NotesPage.Delete | src/app/notes/page.jsx:53-61 | removes the notes with the id unless the request threw |
| Summarizer.ReplyMessage | src/components/TextSummarizer.js:156-171 | the reply is an assistant message, flagged as an error exactly when there is no summary, and carries the summary |
| Summarizer.HistoryOf | src/components/TextSummarizer.js:54-67 | the history of stored summaries is empty exactly when there are none, and opens with the first input as a user entry |
| Summarizer.HistoryShape | src/components/TextSummarizer.js:54-67 | a stored history of n summaries becomes 2n messages: each input as a user message followed by its summary |
| Summarizer.HistoryOfAppend | src/components/TextSummarizer.js:54-67 | one more stored summary adds its two messages at the end |
| Summarizer.BuildHistory | src/components/TextSummarizer.js:54-67 | the loop builds the history the stored summaries define |
| Summarizer.InstructionFallbacks | src/components/TextSummarizer.js:118-128 | unknown strategies and priorities fall back to "balanced" and "accuracy", and the three instructions of each are different |
| Summarizer.StrategyInstruction | src/components/TextSummarizer.js:118-122 | the balanced instruction is given exactly for a strategy other than fast or thorough |
| Summarizer.PriorityInstruction | src/components/TextSummarizer.js:124-128 | the accuracy instruction is given exactly for a priority other than speed or creativity |
| Summarizer.LengthInstruction | src/components/TextSummarizer.js:100-104 | a length has an instruction exactly when it is short, medium or long |
| Summarizer.FormatInstruction | src/components/TextSummarizer.js:106-110 | a format has an instruction exactly when it is paragraph, bullet or numbered |
| Summarizer.FocusInstruction | src/components/TextSummarizer.js:112-116 | a focus has an instruction exactly when it is keyPoints, detailed or actionItems |
| Summarizer.PromptSpecs | src/components/TextSummarizer.js:130-139 | the specification lines of the summary prompt, up to the opening quote of the text |
| Summarizer.SummaryPrompt | src/components/TextSummarizer.js:130-144 | the specification lines, the input and the closing instructions; PromptQuotesInput states that the input is quoted verbatim |
| Summarizer.PromptQuotesInput | src/components/TextSummarizer.js:130-144 | the summary prompt quotes the input verbatim right after the specification lines |
| Summarizer.SummarizerPage.constructor | src/components/TextSummarizer.js:24-45 | empty input, no file, no history, nothing to save, and the initial preferences and options |
| Summarizer.SummarizerPage.Load | src/components/TextSummarizer.js:47-78 | fetches only with a note id; a successful fetch replaces the history with the stored one |
| Summarizer.SummarizerPage.Submit | src/components/TextSummarizer.js:80-176 | blank input changes nothing and sends no prompt; otherwise the prompt is sent, the input and file are cleared, the user message stamped when sent and the reply stamped when it came are appended, and a summary becomes the one to save |
| Summarizer.SummarizerPage.SetUserInput | src/components/TextSummarizer.js:24 | the input setter handed to the panel sets the input and nothing else |
| Summarizer.SummarizerPage.SetFile | src/components/TextSummarizer.js:36 | the file setter handed to the panel sets whether a file is attached and nothing else |
| Summarizer.SummarizerPage.OptionChange | src/components/SummarizationInputPanel.js:137-171 | a length, format or focus select sets that one option and nothing else |
| Summarizer.SummarizerPage.Save | src/components/TextSummarizer.js:178-197 | sends the last summary; it is forgotten unless the request threw |
| Summarizer.SummarizerPage.PlanUpdate | src/components/TextSummarizer.js:210-213 | installs the reported preferences only |
| InputPanel.DisplayText | src/components/SummarizationInputPanel.js:273 | input up to 100 characters is shown in full; longer input shows its first 100 characters and "..." |
| InputPanel.DisplayHidesTail | src/components/SummarizationInputPanel.js:273 | long inputs that agree on the first 100 characters look the same |
| InputPanel.Edited | src/components/SummarizationInputPanel.js:274-281 | typing either lands or leaves the input as it was |
| InputPanel.EditLandsIffWritable | src/components/SummarizationInputPanel.js:274-281 | typing lands exactly when the input is short enough to be editable, or when nothing changes |
| InputPanel.Join | src/components/SummarizationInputPanel.js:90-93 | joining no items gives the empty string, joining one item gives that item, and joining more starts with the first item and is as long as it, the separator and the join of the rest |
| InputPanel.JoinLast | src/components/SummarizationInputPanel.js:90-93 | joining more than one item puts the last item after the join of the others and one separator |
| InputPanel.Collapse | src/components/SummarizationInputPanel.js:94 | `replace(/\s+/g, ' ')` never lengthens, leaves only plain spaces, never two in a row, and keeps the first character or turns it into a space; CollapseWordBreak states how a run of white space between two words is replaced |
| InputPanel.LeadingSpacesUnique | src/components/SummarizationInputPanel.js:94 | a white-space run followed by a non-space is the whole leading run of white space |
| InputPanel.CollapseAppend | src/components/SummarizationInputPanel.js:94 | collapsing text that ends in a non-space and then more text collapses the two parts separately |
| InputPanel.CollapseWordBreak | src/components/SummarizationInputPanel.js:94 | a nonempty run of white space between a part ending in a non-space and a part starting with one becomes exactly one plain space |
| InputPanel.CollapseKeepsLast | src/components/SummarizationInputPanel.js:94 | collapsing keeps a last non-space character last |
| InputPanel.NonSpace | src/components/SummarizationInputPanel.js:94 | the text without its white space |
| InputPanel.NonSpaceAppend | src/components/SummarizationInputPanel.js:94 | the non-space text of a concatenation is the concatenation of the non-space texts |
| InputPanel.NonSpaceBlank | src/components/SummarizationInputPanel.js:94 | nothing but white space is left exactly when the string is blank |
| InputPanel.CollapseKeepsText | src/components/SummarizationInputPanel.js:94 | collapsing white space keeps every other character in order |
| InputPanel.TrimKeepsText | src/components/SummarizationInputPanel.js:94 | trimming keeps every non-space character in order |
| InputPanel.PageText | src/components/SummarizationInputPanel.js:90-94 | a page's items joined with spaces, white space collapsed and trimmed; PageTextNormalised states its properties |
| InputPanel.JoinEnds | src/components/SummarizationInputPanel.js:90-93 | the join of nonempty trimmed items starts and ends with a non-space |
| InputPanel.CollapseJoin | src/components/SummarizationInputPanel.js:90-94 | collapsing the space-joined nonempty trimmed items is joining the collapsed items |
| InputPanel.CollapseTrimmed | src/components/SummarizationInputPanel.js:94 | collapsing a nonempty trimmed string leaves it nonempty and trimmed |
| InputPanel.PageTextOfTrimmedItems | src/components/SummarizationInputPanel.js:90-94 | a page whose items are nonempty and trimmed gets its items' collapsed texts joined by single spaces |
| InputPanel.TrimKeepsSpacing | src/components/SummarizationInputPanel.js:94 | trimming text whose only white space is single plain spaces keeps it so |
| InputPanel.PageTextNormalised | src/components/SummarizationInputPanel.js:90-94 | a page's text is trimmed with single plain spaces and keeps every non-space character of its items in order; when the items are nonempty and trimmed, neighbouring items are separated by exactly one space |
| InputPanel.PageTextEmptyIffBlank | src/components/SummarizationInputPanel.js:90-95 | a page contributes nothing exactly when its items are blank |
| InputPanel.PageTexts | src/components/SummarizationInputPanel.js:86-94 | one text per page, in order |
| InputPanel.PageTextsTrimmed | src/components/SummarizationInputPanel.js:90-94 | every page text is trimmed |
| InputPanel.Chunk | src/components/SummarizationInputPanel.js:95-97 | a page with text adds it followed by a blank line, and an empty page adds nothing |
| InputPanel.AccumulatedStep | src/components/SummarizationInputPanel.js:86-98 | each page adds its chunk to the end of the text so far |
| InputPanel.ExtractText | src/components/SummarizationInputPanel.js:86-98 | the page loop yields the chunks of all pages in page order |
| InputPanel.AllSpaceAppend | src/components/SummarizationInputPanel.js:101 | a concatenation is blank exactly when both parts are |
| InputPanel.AccumulatedBlankIffEmpty | src/components/SummarizationInputPanel.js:86-101 | the extracted text is blank exactly when every page's text is empty |
| InputPanel.Extraction | src/components/SummarizationInputPanel.js:64-112 | extraction yields the trimmed accumulation of the page texts, which is nonempty and trimmed, and yields none exactly when the PDF fails to load or no page has text |
| InputPanel.TrimKeepsTrimmedPrefix | src/components/SummarizationInputPanel.js:101 | trimming keeps a nonempty trimmed prefix |
| InputPanel.FirstChunkLeads | src/components/SummarizationInputPanel.js:86-98 | the first page's chunk starts the extracted text |
| InputPanel.FirstPageLeads | src/components/SummarizationInputPanel.js:86-106 | when the first page has text, extraction succeeds and the result starts with that page's text |
| InputPanel.IsPdf | src/components/SummarizationInputPanel.js:46 | a file is taken exactly when its type is application/pdf |
| InputPanel.SubmitDisabled | src/components/SummarizationInputPanel.js:301 | Submit is disabled while loading or extracting, or when the input is blank and no file is attached |
| InputPanel.EnabledWithoutFileMeansText | src/components/SummarizationInputPanel.js:301 | with no file and nothing loading, Submit is enabled exactly when the input has a non-space character |
| InputPanel.FileEnablesBlankSubmit | src/components/SummarizationInputPanel.js:301 | with a file attached, Submit is enabled for blank input, which the summariser then ignores |
| InputPanel.Panel.constructor | src/components/SummarizationInputPanel.js:17-28 | the panel shows the given input and file and is not in drag state |
| InputPanel.Panel.DragOver | src/components/SummarizationInputPanel.js:31-34 | enters drag state only |
| InputPanel.Panel.DragLeave | src/components/SummarizationInputPanel.js:36-39 | leaves drag state only |
| InputPanel.Panel.Attach | src/components/SummarizationInputPanel.js:46-50 | a PDF becomes the file, and its extracted text, if any, becomes the input |
| InputPanel.Panel.Drop | src/components/SummarizationInputPanel.js:41-52 | a drop ends drag state; a PDF is attached and its text extracted, and anything else is ignored |
| InputPanel.Panel.Select | src/components/SummarizationInputPanel.js:54-62 | a chosen PDF is attached and its text extracted, and anything else is ignored |
| InputPanel.Panel.Type | src/components/SummarizationInputPanel.js:274-281 | typing changes the input as the read-only rule allows |
| InputPanel.Panel.ClearText | src/components/SummarizationInputPanel.js:290 | empties the input, which makes it editable again |
| InputPanel.Panel.ClearFile | src/components/SummarizationInputPanel.js:114-119 | drops the file and keeps the input |

## Left out

- JavaScript numbers are floating point. Ratios and percentages are computed exactly, with halves rounded up as `Math.round` does. Binary rounding of `score / total * 100` is not modelled.
- String lengths count Dafny characters, not UTF-16 code units. Lower-casing covers ASCII letters only.
- `JSON.parse`, `JSON.stringify` and the model's generated text are parameters. The engine-specific message of a `TypeError` thrown by `JSON.parse` or by an `.includes` on a non-array is folded into one failure kind.
- Dates are outside the model: `new Date`, `toDateString` and `toLocaleTimeString` are parameters, and `Date.now()` is an `int`.
- `fetch`, `localStorage`, toasts, the router, the session and `console` are outside the model. Their outcomes are parameters.
- Timers and `await` are outside the model. Each state-changing handler runs as one atomic step, and interleavings of asynchronous handlers are not modelled.
- The quiz's `loading` flag, the summariser's `isLoading` and `isExtractingPdf` flags and the notes page's `saving` flag are not kept as state; InputPanel.SubmitDisabled takes the two summariser flags as parameters. The notes page's `loading` flag is modelled (Notes.NotesPage). Summarizer.SummarizerPage.Submit's intermediate state between sending and the reply is not modelled either; the model records the state after the reply.
- `isExtractingPdf` in the summariser is never set to true, so the panel's extraction guard is always off.
- PDF.js loading and its worker are outside the model. A PDF is its pages' text items, or an error when it cannot be read.
- Mind-map node positions (`Math.cos`/`Math.sin` on the radius) are left out, as are ReactFlow's own node and edge state. Radius and labels are modelled.
- Random shuffling is a parameter: Flashcards.Deck.Shuffle takes any permutation of the current order.
- Flashcards.Deck.Next and Flashcards.Deck.Prev on an empty deck leave the index unchanged. The source computes `% 0` (NaN) there, but with no cards nothing is shown.
- The progress bar percentages of the quiz and the flashcards are display only and left out.
- The counters for starred, today and overdue items, the "This Week" counter of the study-items page (src/app/page.js:233-236) and the character-count label (`toLocaleString`) are display only and left out.
- The step of the agent plan is modelled as a value. `executeSimulatedPlan` mutates the state's step objects through a shallow copy; that aliasing is not modelled.
- Summarizer.SummarizerPage and InputPanel.Panel stand for one state: the input text and the attached file live in the summariser page (src/components/TextSummarizer.js:24, 36) and the panel writes them through `setUserInput` and `setFile`. The model gives each class its own copy and does not link them; the page's SetUserInput and SetFile are the setters through which the panel's changes arrive.
- Flashcards.Deck: the card count is fixed when a deck is built. When the cards change, the source re-installs the identity order (src/components/Flashcards.js:34-38) but keeps the current index, which may then lie past the new last card; the model builds a new deck instead.
- JSON numbers are modelled as integers. A fractional id or answer such as 0.5 is truthy in the source and has no counterpart in the model.
- Quiz.PerfectIffAllCorrect: stated only for fewer than 200 questions, because with 200 or more a single wrong answer still rounds to 100% (Quiz.PerfectWithOneWrong).
- The summariser's download, copy and history panel, and the notes detail pages, are not part of this model.

## Findings

| source | as written | input that shows it | evidently intended | confidence | as-written member | corrected member |
|---|---|---|---|---|---|---|
| src/components/Flashcards.js:126-127 | the shown card is `order[currentIndex] \|\| currentIndex`, so card 0 in the order falls back to the position | shuffle to `[1, 0]`: position 0 shows card 1 and position 1 also shows card 1, so card 0 is never shown | show `order[currentIndex]` | not executed | Flashcards.ShownCardAsWrittenSkipsCardZero | Flashcards.ShownCardCoversDeck |
| src/components/AgentPlanMonitor.js:162 | the new id is `Math.max(...ids) + 1` | delete every step, then add two: `Math.max()` is `-Infinity`, so both new steps get id `-Infinity` | ids stay distinct (1 for an empty plan) | not executed | AgentPlan.AddToEmptyPlanRepeatsId | AgentPlan.NextStepId |

=== FILE: AgentPlan.dfy ===
/** The agent plan monitor: an editable list of processing steps, the
    simulated run that walks each step through its progress, the plan
    preferences and the input insights. Timers are left out: each await of
    the run is one published snapshot of the list. */
module AgentPlan {
  import opened Common

  /** `"pending"`, `"active"`, `"completed"` and `"error"`. */
  datatype Status = Pending | Active | Completed | Failed

  datatype Step = Step(id: int, title: string, description: string, status: Status,
                       progress: int, estimatedTime: string, details: string)

  /** The four steps the monitor starts with. */
  function InitialSteps(): (r: seq<Step>)
    ensures |r| == 4
    ensures forall k :: 0 <= k < 4 ==> r[k].id == k + 1 && r[k].status == Pending && r[k].progress == 0
  {
    [ Step(1, "Text Analysis", "Analyze input text structure and content", Pending, 0, "2s",
           "Identifying key themes, structure, and content type"),
      Step(2, "Content Processing", "Apply summarization strategy based on user preferences", Pending, 0, "3s",
           "Processing text according to length, format, and focus settings"),
      Step(3, "Summary Generation", "Generate summary using AI model", Pending, 0, "4s",
           "Creating coherent summary with selected parameters"),
      Step(4, "Quality Review", "Review and optimize generated summary", Pending, 0, "1s",
           "Ensuring summary quality and coherence") ]
  }

  /** No two steps share an id. */
  predicate DistinctIds(steps: seq<Step>) {
    forall i, j :: 0 <= i < j < |steps| ==> steps[i].id != steps[j].id
  }

  predicate HasId(steps: seq<Step>, id: int) {
    exists k :: 0 <= k < |steps| && steps[k].id == id
  }

  // ---------------------------------------------------------------------
  // Step ids
  // ---------------------------------------------------------------------

  /** A JavaScript number that may be minus infinity, as `Math.max()` of
      no arguments is. */
  datatype ExtInt = NegInfinity | Finite(value: int)

  function ExtMax(a: ExtInt, b: ExtInt): ExtInt {
    match (a, b)
    case (NegInfinity, _) => b
    case (_, NegInfinity) => a
    case (Finite(x), Finite(y)) => Finite(Max(x, y))
  }

  /** The largest id as JavaScript computes it: minus infinity for no ids. */
  function MaxAsWritten(ids: seq<ExtInt>): (r: ExtInt)
    ensures r == NegInfinity <==> forall k :: 0 <= k < |ids| ==> ids[k] == NegInfinity
    ensures forall k :: 0 <= k < |ids| && ids[k].Finite? ==> r.Finite? && ids[k].value <= r.value
  {
    if ids == [] then NegInfinity else ExtMax(ids[0], MaxAsWritten(ids[1..]))
  }

  /** The id the add button gives as written: one more than the largest
      id, where minus infinity plus one stays minus infinity. */
  function NextIdAsWritten(ids: seq<ExtInt>): ExtInt {
    match MaxAsWritten(ids)
    case NegInfinity => NegInfinity
    case Finite(m) => Finite(m + 1)
  }

  /** Once every step has been deleted, two adds in a row give two steps
      the same id (minus infinity), so a later delete removes both. */
  lemma AddToEmptyPlanRepeatsId()
    ensures NextIdAsWritten([]) == NegInfinity
    ensures NextIdAsWritten([NextIdAsWritten([])]) == NextIdAsWritten([])
  {
  }

  /** The largest id of a non-empty plan. */
  function MaxId(steps: seq<Step>): (m: int)
    requires steps != []
    ensures forall k :: 0 <= k < |steps| ==> steps[k].id <= m
    ensures HasId(steps, m)
  {
    if |steps| == 1 then steps[0].id
    else
      var rest := MaxId(steps[1..]);
      assert forall k :: 1 <= k < |steps| ==> steps[k].id == steps[1..][k - 1].id;
      if steps[0].id >= rest then steps[0].id else rest
  }

  /** The id a new step gets: one more than the largest, and 1 for an empty plan. */
  function NextStepId(steps: seq<Step>): (r: int)
    ensures !HasId(steps, r)
    ensures steps != [] ==> r == MaxId(steps) + 1
    ensures steps == [] ==> r == 1
  {
    if steps == [] then 1 else MaxId(steps) + 1
  }

  /** The step `handleAddStep` appends. */
  function NewStep(id: int): (r: Step)
    ensures r.id == id && r.status == Pending && r.progress == 0
  {
    Step(id, "New Step", "Custom step description", Pending, 0, "1s", "Custom step details")
  }

  // ---------------------------------------------------------------------
  // List edits
  // ---------------------------------------------------------------------

  /** Puts the edited step in place of every step with its id; the other
      steps and the order stay. */
  function Replace(steps: seq<Step>, edited: Step): (r: seq<Step>)
    ensures |r| == |steps|
    ensures forall k :: 0 <= k < |steps| ==> r[k] == (if steps[k].id == edited.id then edited else steps[k])
  {
    Map(steps, (s: Step) => if s.id == edited.id then edited else s)
  }

  /** Replacing by id leaves every id where it was. */
  lemma ReplaceKeepsIds(steps: seq<Step>, edited: Step)
    ensures forall k :: 0 <= k < |steps| ==> Replace(steps, edited)[k].id == steps[k].id
    ensures DistinctIds(steps) ==> DistinctIds(Replace(steps, edited))
  {
  }

  predicate KeepsStep(id: int, s: Step) { s.id != id }

  /** `prev.filter(step => step.id !== stepId)`: the steps without that id,
      all of them, in their order. */
  function Without(steps: seq<Step>, id: int): (r: seq<Step>)
    ensures forall s :: s in r ==> s.id != id
    ensures forall s :: s in steps && s.id != id ==> s in r
    ensures IsSubsequence(r, steps)
    ensures forall s :: multiset(r)[s] == if s.id != id then multiset(steps)[s] else 0
  {
    FilterIsSubsequence(steps, s => KeepsStep(id, s));
    Filter(steps, s => KeepsStep(id, s))
  }

  /** A subsequence of a list with distinct ids has distinct ids. */
  lemma {:induction false} SubsequenceDistinct(a: seq<Step>, b: seq<Step>)
    requires IsSubsequence(a, b) && DistinctIds(b)
    ensures DistinctIds(a)
    ensures forall s :: s in a ==> s in b
    decreases |b|
  {
    if a != [] {
      assert DistinctIds(b[1..]) by {
        forall i, j | 0 <= i < j < |b[1..]| ensures b[1..][i].id != b[1..][j].id {
          assert b[1..][i] == b[i + 1] && b[1..][j] == b[j + 1];
        }
      }
      if a[0] == b[0] {
        SubsequenceDistinct(a[1..], b[1..]);
        forall j | 0 < j < |a| ensures a[0].id != a[j].id {
          assert a[j] == a[1..][j - 1];
          assert a[j] in b[1..];
          var k :| 0 <= k < |b[1..]| && b[1..][k] == a[j];
          assert b[k + 1] == a[j];
        }
        forall s | s in a ensures s in b {
          if s != a[0] {
            assert s in a[1..];
          }
        }
      } else {
        SubsequenceDistinct(a, b[1..]);
      }
    }
  }

  /** A step with its status back to pending and no progress. */
  function ResetStep(s: Step): Step { s.(status := Pending, progress := 0) }

  /** Every step back to pending with no progress, its content kept. */
  function ResetAll(steps: seq<Step>): (r: seq<Step>)
    ensures |r| == |steps|
    ensures forall k :: 0 <= k < |steps| ==> r[k] == ResetStep(steps[k])
  {
    Map(steps, ResetStep)
  }

  /** Resetting keeps every step's id, texts and time estimate, and
      resetting twice is resetting once. */
  lemma ResetKeepsContent(steps: seq<Step>)
    ensures forall k :: 0 <= k < |steps| ==>
      var r := ResetAll(steps)[k];
      && r.status == Pending && r.progress == 0
      && r.id == steps[k].id && r.title == steps[k].title && r.description == steps[k].description
      && r.details == steps[k].details && r.estimatedTime == steps[k].estimatedTime
    ensures ResetAll(ResetAll(steps)) == ResetAll(steps)
  {
  }

  // ---------------------------------------------------------------------
  // Simulated run
  // ---------------------------------------------------------------------

  function Done(s: Step): Step { s.(status := Completed, progress := 100) }

  /** The step being run, in the `j`-th of the eight snapshots published
      while it runs: active, then active with progress 0, 20, ..., 100,
      then completed. */
  function Phase(s: Step, j: nat): (r: Step)
    requires j < 8
    ensures r.id == s.id && r.title == s.title && r.description == s.description
    ensures r.status == Completed <==> j == 7
    ensures r.status == Active <==> j < 7
    ensures 1 <= j <= 6 ==> r.progress == 20 * (j - 1)
  {
    if j == 0 then s.(status := Active)
    else if j <= 6 then s.(status := Active, progress := 20 * (j - 1))
    else Done(s)
  }

  /** Step `i` in phase `j`: the steps before it completed, the ones after it untouched. */
  function Snapshot(plan: seq<Step>, i: nat, j: nat): (r: seq<Step>)
    requires i < |plan| && j < 8
    ensures |r| == |plan|
  {
    seq(|plan|, k requires 0 <= k < |plan| => if k < i then Done(plan[k]) else if k == i then Phase(plan[i], j) else plan[k])
  }

  /** Every snapshot has the shape of a run in progress. */
  lemma SnapshotShape(plan: seq<Step>, i: nat, j: nat)
    requires i < |plan| && j < 8
    ensures forall k :: 0 <= k < i ==> Snapshot(plan, i, j)[k].status == Completed && Snapshot(plan, i, j)[k].progress == 100
    ensures Snapshot(plan, i, j)[i].status == (if j == 7 then Completed else Active)
    ensures 1 <= j ==> Snapshot(plan, i, j)[i].progress in {0, 20, 40, 60, 80, 100}
    ensures forall k :: i < k < |plan| ==> Snapshot(plan, i, j)[k] == plan[k]
    ensures forall k :: 0 <= k < |plan| ==> Snapshot(plan, i, j)[k].id == plan[k].id
  {
  }

  /** `executeSimulatedPlan`: the snapshots it publishes, eight per step in
      order, and the list it leaves, every step completed. */
  method Execute(plan: seq<Step>) returns (trace: seq<seq<Step>>, final: seq<Step>)
    ensures |trace| == 8 * |plan|
    ensures forall i, j :: 0 <= i < |plan| && 0 <= j < 8 ==> trace[8 * i + j] == Snapshot(plan, i, j)
    ensures |final| == |plan|
    ensures forall k :: 0 <= k < |plan| ==> final[k] == Done(plan[k])
    ensures plan != [] ==> trace[|trace| - 1] == final
  {
    var work := plan;
    trace := [];
    var i := 0;
    while i < |plan|
      invariant 0 <= i <= |plan|
      invariant |work| == |plan|
      invariant forall k :: 0 <= k < i ==> work[k] == Done(plan[k])
      invariant forall k :: i <= k < |plan| ==> work[k] == plan[k]
      invariant |trace| == 8 * i
      invariant forall a, j :: 0 <= a < i && 0 <= j < 8 ==> trace[8 * a + j] == Snapshot(plan, a, j)
      invariant i > 0 ==> trace[|trace| - 1] == work
    {
      work := work[i := work[i].(status := Active)];
      assert work == Snapshot(plan, i, 0);
      trace := trace + [work];
      var progress := 0;
      ghost var j: nat := 0;
      while progress <= 100
        invariant progress == 20 * j && j <= 6
        invariant |trace| == 8 * i + 1 + j
        invariant work == Snapshot(plan, i, j)
        invariant forall a, b :: 0 <= a < i && 0 <= b < 8 ==> trace[8 * a + b] == Snapshot(plan, a, b)
        invariant forall b :: 0 <= b <= j ==> trace[8 * i + b] == Snapshot(plan, i, b)
      {
        work := work[i := work[i].(progress := progress)];
        j := j + 1;
        assert work == Snapshot(plan, i, j);
        trace := trace + [work];
        progress := progress + 20;
      }
      work := work[i := work[i].(status := Completed, progress := 100)];
      assert work == Snapshot(plan, i, 7);
      trace := trace + [work];
      i := i + 1;
    }
    final := work;
  }

  // ---------------------------------------------------------------------
  // Preferences and insights
  // ---------------------------------------------------------------------

  datatype Preferences = Preferences(strategy: string, priority: string, complexity: string)

  const InitialPreferences := Preferences("balanced", "accuracy", "medium")

  datatype PreferenceKey = Strategy | Priority | Complexity

  function Prefer(p: Preferences, key: PreferenceKey, value: string): (r: Preferences)
    ensures key == Strategy ==> r == Preferences(value, p.priority, p.complexity)
    ensures key == Priority ==> r == Preferences(p.strategy, value, p.complexity)
    ensures key == Complexity ==> r == Preferences(p.strategy, p.priority, value)
  {
    match key
    case Strategy => p.(strategy := value)
    case Priority => p.(priority := value)
    case Complexity => p.(complexity := value)
  }

  /** The estimated run time in seconds: one per thousand characters of
      input, rounded down, and never under five. */
  function EstimatedSeconds(length: nat): (r: nat)
    ensures r >= 5
    ensures 1000 * r <= Max(5000, length)
    ensures length >= 5000 ==> length < 1000 * (r + 1)
  {
    Max(5, length / 1000)
  }

  /** The estimate never shrinks as the input grows. */
  lemma EstimateMonotone(a: nat, b: nat)
    requires a <= b
    ensures EstimatedSeconds(a) <= EstimatedSeconds(b)
  {
  }

  datatype Level = Low | Medium | High

  /** The complexity badge: above 5000 characters high, above 1000 medium, else low. */
  function ComplexityLevel(length: nat): (r: Level)
    ensures r == High <==> length > 5000
    ensures r == Medium <==> 1000 < length <= 5000
    ensures r == Low <==> length <= 1000
  {
    if length > 5000 then High else if length > 1000 then Medium else Low
  }

  // ---------------------------------------------------------------------
  // The monitor
  // ---------------------------------------------------------------------

  /** The field of the step being edited that a dialog input sets. */
  datatype StepField = Title | Description | Details | EstimatedTime

  function SetField(s: Step, field: StepField, value: string): Step {
    match field
    case Title => s.(title := value)
    case Description => s.(description := value)
    case Details => s.(details := value)
    case EstimatedTime => s.(estimatedTime := value)
  }

  class PlanMonitor {
    var steps: seq<Step>
    var editing: Option<Step>
    var prefs: Preferences

    /** Step ids stay distinct. */
    predicate Valid()
      reads this
    {
      DistinctIds(steps)
    }

    constructor ()
      ensures Valid()
      ensures steps == InitialSteps() && editing == None && prefs == InitialPreferences
    {
      steps := InitialSteps();
      editing := None;
      prefs := InitialPreferences;
    }

    /** `handleEditStep`: opens the dialog on a copy of the step. */
    method EditStep(step: Step)
      modifies this
      requires Valid() && step in steps
      ensures Valid()
      ensures editing == Some(step) && steps == old(steps) && prefs == old(prefs)
    {
      editing := Some(step);
    }

    /** A dialog input: changes one field of the copy, not the list. */
    method EditDraft(field: StepField, value: string)
      modifies this
      requires Valid() && editing.Some?
      ensures Valid()
      ensures editing == Some(SetField(old(editing).value, field, value))
      ensures steps == old(steps) && prefs == old(prefs)
    {
      editing := Some(SetField(editing.value, field, value));
    }

    /** "Cancel", or closing the dialog. */
    method CancelEdit()
      modifies this
      requires Valid()
      ensures Valid()
      ensures editing == None && steps == old(steps) && prefs == old(prefs)
    {
      editing := None;
    }

    /** `handleSaveStep`: the steps with the edited id become the copy; the dialog closes. */
    method SaveStep()
      modifies this
      requires Valid() && editing.Some?
      ensures Valid()
      ensures steps == Replace(old(steps), old(editing).value)
      ensures editing == None && prefs == old(prefs)
    {
      ReplaceKeepsIds(steps, editing.value);
      steps := Replace(steps, editing.value);
      editing := None;
    }

    /** `handleAddStep`, with the id of `NextStepId`: appends one pending step. */
    method AddStep()
      modifies this
      requires Valid()
      ensures Valid()
      ensures steps == old(steps) + [NewStep(NextStepId(old(steps)))]
      ensures !HasId(old(steps), steps[|steps| - 1].id)
      ensures editing == old(editing) && prefs == old(prefs)
    {
      var id := NextStepId(steps);
      steps := steps + [NewStep(id)];
      assert forall k :: 0 <= k < |steps| - 1 ==> steps[k].id != id;
    }

    /** `handleDeleteStep`: the steps with the id are removed. */
    method DeleteStep(id: int)
      modifies this
      requires Valid()
      ensures Valid()
      ensures steps == Without(old(steps), id)
      ensures !HasId(steps, id)
      ensures editing == old(editing) && prefs == old(prefs)
    {
      SubsequenceDistinct(Without(steps, id), steps);
      steps := Without(steps, id);
      assert forall k :: 0 <= k < |steps| ==> steps[k] in steps;
    }

    /** `resetPlan`, and the effect that runs when processing stops. */
    method ResetPlan()
      modifies this
      requires Valid()
      ensures Valid()
      ensures steps == ResetAll(old(steps))
      ensures editing == old(editing) && prefs == old(prefs)
    {
      steps := ResetAll(steps);
    }

    /** The inline inputs of the edit tab: one field of the step at `index`. */
    method InlineEdit(index: nat, field: StepField, value: string)
      modifies this
      requires Valid() && index < |steps| && (field == Title || field == Description)
      ensures Valid()
      ensures steps == old(steps)[index := SetField(old(steps)[index], field, value)]
      ensures editing == old(editing) && prefs == old(prefs)
    {
      steps := steps[index := SetField(steps[index], field, value)];
    }

    /** `handlePlanPreferenceChange`: one preference changes, and the merged
        preferences are what `onPlanUpdate` receives. */
    method PreferenceChange(key: PreferenceKey, value: string) returns (reported: Preferences)
      modifies this
      requires Valid()
      ensures Valid()
      ensures prefs == Prefer(old(prefs), key, value) && reported == prefs
      ensures steps == old(steps) && editing == old(editing)
    {
      prefs := Prefer(prefs, key, value);
      reported := prefs;
    }

    /** Processing starts: the run's snapshots are published and the list ends with every step completed. */
    method Run() returns (trace: seq<seq<Step>>)
      modifies this
      requires Valid()
      ensures Valid()
      ensures |trace| == 8 * |old(steps)|
      ensures |steps| == |old(steps)|
      ensures forall k :: 0 <= k < |steps| ==> steps[k] == Done(old(steps)[k])
      ensures editing == old(editing) && prefs == old(prefs)
    {
      var final;
      trace, final := Execute(steps);
      assert forall k :: 0 <= k < |steps| ==> final[k].id == steps[k].id;
      steps := final;
    }
  }
}

=== FILE: Common.dfy ===
/** Shared vocabulary of the model: optional values, results, and the small
    pieces of JavaScript string and number semantics the components rely on
    (`\s`, `trim`, `toLowerCase` over ASCII, `includes`, `Math.round`,
    number-to-string). */
module Common {

  datatype Option<T> = None | Some(value: T)

  datatype Result<T, E> = Ok(value: T) | Err(error: E)

  /** The characters JavaScript's `\s` matches (WhiteSpace and LineTerminator);
      `String.prototype.trim` strips exactly these. */
  predicate IsSpace(c: char) {
    || c == ' ' || c == '\t' || c == '\n' || c == '\r' || c == '\U{B}' || c == '\U{C}'
    || c == '\U{A0}' || c == '\U{1680}' || ('\U{2000}' <= c <= '\U{200A}')
    || c == '\U{2028}' || c == '\U{2029}' || c == '\U{202F}' || c == '\U{205F}'
    || c == '\U{3000}' || c == '\U{FEFF}'
  }

  predicate IsDigit(c: char) { '0' <= c <= '9' }

  predicate IsAsciiLetter(c: char) { ('a' <= c <= 'z') || ('A' <= c <= 'Z') }

  /** No leading and no trailing whitespace. */
  predicate IsTrimmed(s: string) {
    s == [] || (!IsSpace(s[0]) && !IsSpace(s[|s| - 1]))
  }

  predicate AllSpace(s: string) {
    forall i :: 0 <= i < |s| ==> IsSpace(s[i])
  }

  /** Number of whitespace characters at the start of `s`. */
  function LeadingSpaces(s: string): (k: nat)
    ensures k <= |s|
    ensures AllSpace(s[..k])
    ensures k < |s| ==> !IsSpace(s[k])
  {
    if s == [] || !IsSpace(s[0]) then 0 else 1 + LeadingSpaces(s[1..])
  }

  /** Number of whitespace characters at the end of `s`. */
  function TrailingSpaces(s: string): (k: nat)
    ensures k <= |s|
    ensures AllSpace(s[|s| - k..])
    ensures k < |s| ==> !IsSpace(s[|s| - 1 - k])
  {
    if s == [] || !IsSpace(s[|s| - 1]) then 0 else 1 + TrailingSpaces(s[..|s| - 1])
  }

  /** The bounds `String.prototype.trim` keeps: `s[lo..hi]`. */
  function TrimBounds(s: string): (b: (nat, nat))
    ensures b.0 <= b.1 <= |s|
    ensures AllSpace(s[..b.0]) && AllSpace(s[b.1..])
    ensures IsTrimmed(s[b.0..b.1])
    ensures b.0 == b.1 ==> AllSpace(s)
  {
    var lo := LeadingSpaces(s);
    if lo == |s| then (lo, lo)
    else
      var hi := |s| - TrailingSpaces(s);
      assert lo < hi by {
        forall i | hi <= i < |s| ensures IsSpace(s[i]) {
          assert s[i] == s[hi..][i - hi];
        }
      }
      assert AllSpace(s[..lo]);
      (lo, hi)
  }

  /** `String.prototype.trim`. */
  function Trim(s: string): (r: string)
    ensures IsTrimmed(r)
    ensures |r| <= |s|
    ensures r == [] <==> AllSpace(s)
  {
    var b := TrimBounds(s);
    if b.0 == b.1 then []
    else
      assert !IsSpace(s[b.0..b.1][0]);
      s[b.0..b.1]
  }

  /** Every character of a trimmed string comes from the original. */
  lemma TrimKeepsChars(s: string)
    ensures forall c :: c in Trim(s) ==> c in s
  {
    var b := TrimBounds(s);
    forall c | c in Trim(s) ensures c in s {
      var k :| 0 <= k < |Trim(s)| && Trim(s)[k] == c;
      assert s[b.0 + k] == c;
    }
  }

  /** Trimming only removes whitespace: a string with none at its ends is kept. */
  lemma TrimmedFixpoint(s: string)
    requires IsTrimmed(s)
    ensures Trim(s) == s
  {
    if s != [] {
      assert LeadingSpaces(s) == 0;
      assert TrailingSpaces(s) == 0;
    }
  }

  /** A string is blank when it is empty after trimming (`!s.trim()`). */
  predicate IsBlank(s: string) { AllSpace(s) }

  /** `toLowerCase`, over ASCII letters. */
  function LowerChar(c: char): (r: char)
    ensures IsAsciiLetter(c) ==> IsAsciiLetter(r) && 'a' <= r <= 'z'
    ensures !('A' <= c <= 'Z') ==> r == c
  {
    if 'A' <= c <= 'Z' then (c as int - 'A' as int + 'a' as int) as char else c
  }

  function Lower(s: string): (r: string)
    ensures |r| == |s|
    ensures forall i :: 0 <= i < |s| ==> r[i] == LowerChar(s[i])
  {
    if s == [] then [] else [LowerChar(s[0])] + Lower(s[1..])
  }

  /** Lower-casing twice is lower-casing once. */
  lemma LowerIdempotent(s: string)
    ensures Lower(Lower(s)) == Lower(s)
  {
    assert forall i :: 0 <= i < |s| ==> LowerChar(LowerChar(s[i])) == LowerChar(s[i]);
  }

  /** `n === 1 ? singular : plural` */
  function CountNoun(n: nat, singular: string, plural: string): (r: string)
    ensures r == singular <==> n == 1 || singular == plural
  {
    if n == 1 then singular else plural
  }

  predicate IsPrefix(p: string, s: string) {
    |p| <= |s| && s[..|p|] == p
  }

  /** `s.includes(sub)`. */
  predicate Includes(s: string, sub: string)
    decreases |s|
  {
    IsPrefix(sub, s) || (s != [] && Includes(s[1..], sub))
  }

  /** `sub` occurs in `s` starting at offset `i`. */
  ghost predicate OccursAt(s: string, sub: string, i: nat) {
    i + |sub| <= |s| && s[i..i + |sub|] == sub
  }

  /** `includes` holds exactly when `sub` occurs at some offset of `s`. */
  lemma {:induction false} IncludesAt(s: string, sub: string)
    ensures Includes(s, sub) <==> exists i: nat :: OccursAt(s, sub, i)
    decreases |s|
  {
    if IsPrefix(sub, s) {
      assert OccursAt(s, sub, 0);
    } else if s == [] {
      assert forall i: nat :: !OccursAt(s, sub, i);
    } else {
      IncludesAt(s[1..], sub);
      if exists i: nat :: OccursAt(s, sub, i) {
        var i: nat :| OccursAt(s, sub, i);
        assert i != 0;
        assert s[1..][i - 1..i - 1 + |sub|] == s[i..i + |sub|];
        assert OccursAt(s[1..], sub, i - 1);
      }
      if Includes(s[1..], sub) {
        var j: nat :| OccursAt(s[1..], sub, j);
        assert s[j + 1..j + 1 + |sub|] == s[1..][j..j + |sub|];
        assert OccursAt(s, sub, j + 1);
      }
    }
  }

  /** The empty query is contained in every string. */
  lemma IncludesEmpty(s: string)
    ensures Includes(s, "")
  {
  }

  /** `Math.round(num / den)` for a positive denominator: round half up. */
  function RoundDiv(num: int, den: int): (r: int)
    requires den > 0
    ensures 2 * den * r <= 2 * num + den < 2 * den * (r + 1)
  {
    (2 * num + den) / (2 * den)
  }

  lemma MulMono(w: int, a: int, b: int)
    requires w > 0 && a <= b
    ensures w * a <= w * b
  {
  }

  /** The rounded quotient is the only integer in its window. */
  lemma {:induction false} RoundUnique(num: int, den: int, k: int)
    requires den > 0
    requires 2 * den * k <= 2 * num + den < 2 * den * (k + 1)
    ensures RoundDiv(num, den) == k
  {
    var r := RoundDiv(num, den);
    if r < k {
      MulMono(2 * den, r + 1, k);
    } else if r > k {
      MulMono(2 * den, k + 1, r);
    }
  }

  /** `Math.round(100 * part / whole)`, a percentage. */
  function Percent(part: nat, whole: nat): (r: int)
    requires 0 < whole && part <= whole
    ensures 0 <= r <= 100
    ensures 2 * whole * r <= 200 * part + whole < 2 * whole * (r + 1)
    ensures part == whole ==> r == 100
    ensures part == 0 ==> r == 0
  {
    var r := RoundDiv(100 * part, whole);
    assert r <= 100 by {
      MulMono(whole, part, whole);
      if r > 100 { MulMono(2 * whole, 101, r); }
    }
    assert r >= 0 by {
      if r < 0 { MulMono(2 * whole, r + 1, 0); }
    }
    assert part == whole ==> r == 100 by {
      if part == whole { RoundUnique(100 * part, whole, 100); }
    }
    assert part == 0 ==> r == 0 by {
      if part == 0 { RoundUnique(0, whole, 0); }
    }
    r
  }

  function DigitChar(d: nat): (c: char)
    requires d < 10
    ensures IsDigit(c)
  {
    ('0' as int + d) as char
  }

  /** `String(n)` for a natural number: its decimal digits. */
  function NatToString(n: nat): (r: string)
    ensures r != []
    ensures forall i :: 0 <= i < |r| ==> IsDigit(r[i])
    ensures n < 10 <==> |r| == 1
  {
    if n < 10 then [DigitChar(n)] else NatToString(n / 10) + [DigitChar(n % 10)]
  }

  /** Different numbers print differently. */
  lemma {:induction false} NatToStringInjective(a: nat, b: nat)
    requires NatToString(a) == NatToString(b)
    ensures a == b
  {
    if a >= 10 && b >= 10 {
      var sa, sb := NatToString(a), NatToString(b);
      assert sa[|sa| - 1] == sb[|sb| - 1];
      assert a % 10 == b % 10;
      assert sa[..|sa| - 1] == NatToString(a / 10);
      assert sb[..|sb| - 1] == NatToString(b / 10);
      NatToStringInjective(a / 10, b / 10);
    }
  }

  /** `Math.max(200, x)` and friends. */
  function Max(a: int, b: int): (r: int)
    ensures r >= a && r >= b && (r == a || r == b)
  {
    if a >= b then a else b
  }

  /** `xs.map(f)`. */
  function Map<T, U>(xs: seq<T>, f: T -> U): (r: seq<U>)
    ensures |r| == |xs|
    ensures forall i :: 0 <= i < |xs| ==> r[i] == f(xs[i])
  {
    if xs == [] then [] else [f(xs[0])] + Map(xs[1..], f)
  }

  /** `xs.filter(p)`. */
  function Filter<T>(xs: seq<T>, p: T -> bool): (r: seq<T>)
    ensures |r| <= |xs|
    ensures forall x :: x in r ==> x in xs && p(x)
  {
    if xs == [] then []
    else if p(xs[0]) then [xs[0]] + Filter(xs[1..], p)
    else Filter(xs[1..], p)
  }

  /** Order-preserving subsequence. */
  predicate IsSubsequence<T(==)>(a: seq<T>, b: seq<T>)
    decreases |b|
  {
    a == [] || (b != [] && (if a[0] == b[0] then IsSubsequence(a[1..], b[1..]) else IsSubsequence(a, b[1..])))
  }

  /** A prefix of a subsequence is still a subsequence. */
  lemma {:induction false} PrefixIsSubsequence<T>(a: seq<T>, b: seq<T>, k: nat)
    requires IsSubsequence(a, b) && k <= |a|
    ensures IsSubsequence(a[..k], b)
    decreases |b|
  {
    if k > 0 {
      if a[0] == b[0] {
        PrefixIsSubsequence(a[1..], b[1..], k - 1);
        assert a[..k][1..] == a[1..][..k - 1];
      } else {
        PrefixIsSubsequence(a, b[1..], k);
      }
    }
  }

  /** A filter keeps the kept elements in their original order, and keeps
      every element that satisfies the predicate, as many times as it
      occurs. */
  lemma {:induction false} FilterIsSubsequence<T>(xs: seq<T>, p: T -> bool)
    ensures IsSubsequence(Filter(xs, p), xs)
    ensures forall x :: x in xs && p(x) ==> x in Filter(xs, p)
    ensures forall x :: multiset(Filter(xs, p))[x] == if p(x) then multiset(xs)[x] else 0
  {
    if xs != [] {
      FilterIsSubsequence(xs[1..], p);
      assert xs == [xs[0]] + xs[1..];
      assert forall x :: x in xs ==> x == xs[0] || x in xs[1..];
      if !p(xs[0]) {
        var f := Filter(xs[1..], p);
        if f != [] {
          // the head is skipped: f[0] != xs[0] because p(f[0]) holds
          assert p(f[0]);
        }
      }
    }
  }

  /** A filter whose predicate holds everywhere returns its input. */
  lemma {:induction false} FilterAll<T>(xs: seq<T>, p: T -> bool)
    requires forall x :: x in xs ==> p(x)
    ensures Filter(xs, p) == xs
  {
    if xs != [] {
      FilterAll(xs[1..], p);
    }
  }

  /** `xs.filter(p).length`. */
  function Count<T>(xs: seq<T>, p: T -> bool): (n: nat)
    ensures n <= |xs|
  {
    |Filter(xs, p)|
  }

  /** Counting a predicate and its negation partitions the list. */
  lemma {:induction false} CountSplit<T>(xs: seq<T>, p: T -> bool, q: T -> bool)
    requires forall x :: q(x) == !p(x)
    ensures Count(xs, p) + Count(xs, q) == |xs|
  {
    if xs != [] {
      CountSplit(xs[1..], p, q);
    }
  }

  /** A filter whose predicate holds nowhere returns nothing. */
  lemma NoneKept<T>(xs: seq<T>, p: T -> bool)
    requires forall x :: x in xs ==> !p(x)
    ensures Filter(xs, p) == []
  {
    if Filter(xs, p) != [] {
      assert Filter(xs, p)[0] in Filter(xs, p);
    }
  }

  /** The middle part of a concatenation occurs right after the first. */
  lemma OccursInMiddle(a: string, b: string, c: string)
    ensures OccursAt(a + b + c, b, |a|)
  {
    assert (a + b + c)[|a|..|a| + |b|] == b;
  }

  lemma Regroup(a: string, b: string, c: string, d: string, e: string)
    ensures a + b + (c + d + e) == (a + b + c) + d + e
  {
  }
}

=== FILE: Flashcards.dfy ===
/** The flashcard view: the cards derived from a summarization, and the
    deck controller that walks through them (index, shuffled order,
    autoplay with its countdown). */
module Flashcards {
  import opened Common
  import opened Segmentation

  // ---------------------------------------------------------------------
  // Segmentation
  // ---------------------------------------------------------------------

  /** `summary.trim() || input.trim()`: the trimmed summary, unless it is empty. */
  function SourceText(summary: string, input: string): (t: string)
    ensures IsTrimmed(t)
    ensures !IsBlank(summary) ==> t != [] && t == Trim(summary)
    ensures IsBlank(summary) ==> (t == [] <==> IsBlank(input))
  {
    var s := Trim(summary);
    if s != [] then s else Trim(input)
  }

  /** A primary fragment is kept when it is non-empty and longer than ten characters. */
  predicate IsCardSized(x: string) { x != [] && |x| > 10 }

  predicate NonEmpty(x: string) { x != [] }

  /** Sentences and list items, trimmed, longer than ten characters. */
  function PrimaryCards(text: string): (r: seq<string>)
    ensures forall c :: c in r ==> IsTrimmed(c) && |c| > 10
    ensures IsSubsequence(r, TrimmedPieces(SentenceOrListItem, text))
    ensures forall x :: x in TrimmedPieces(SentenceOrListItem, text) && |x| > 10 ==> x in r
    ensures forall x :: multiset(r)[x] == if |x| > 10 then multiset(TrimmedPieces(SentenceOrListItem, text))[x] else 0
  {
    var pieces := TrimmedPieces(SentenceOrListItem, text);
    FilterIsSubsequence(pieces, IsCardSized);
    assert forall x :: IsCardSized(x) == (|x| > 10);
    Filter(pieces, IsCardSized)
  }

  /** Blank-line separated paragraphs, trimmed, with empties dropped. */
  function ParagraphCards(text: string): (r: seq<string>)
    ensures forall c :: c in r ==> IsTrimmed(c) && c != []
    ensures IsSubsequence(r, TrimmedPieces(BlankLine, text))
    ensures forall x :: x in TrimmedPieces(BlankLine, text) && x != [] ==> x in r
    ensures forall x :: multiset(r)[x] == if x != [] then multiset(TrimmedPieces(BlankLine, text))[x] else 0
  {
    var pieces := TrimmedPieces(BlankLine, text);
    FilterIsSubsequence(pieces, NonEmpty);
    assert forall x :: NonEmpty(x) == (x != []);
    Filter(pieces, NonEmpty)
  }

  /** The `flashcards` memo: primary split, or the paragraph fallback when
      it yields fewer than three cards. */
  function Cards(summary: string, input: string): (r: seq<string>)
    ensures forall c :: c in r ==> IsTrimmed(c) && c != []
    ensures IsBlank(summary) && IsBlank(input) ==> r == []
  {
    var text := SourceText(summary, input);
    if text == [] then []
    else
      var cards := PrimaryCards(text);
      if |cards| < 3 then ParagraphCards(text) else cards
  }

  /** Which segmentation the memo uses, and what each guarantees: the
      primary split when it finds at least three cards (then every card is
      longer than ten characters), the paragraph split otherwise; either way
      the cards come from the text in order. */
  lemma CardsChoice(summary: string, input: string)
    ensures var text := SourceText(summary, input);
      text != [] ==>
        && (|PrimaryCards(text)| >= 3 ==>
              Cards(summary, input) == PrimaryCards(text)
              && (forall c :: c in Cards(summary, input) ==> |c| > 10)
              && IsSubsequence(Cards(summary, input), TrimmedPieces(SentenceOrListItem, text)))
        && (|PrimaryCards(text)| < 3 ==>
              Cards(summary, input) == ParagraphCards(text)
              && IsSubsequence(Cards(summary, input), TrimmedPieces(BlankLine, text)))
  {
  }

  // ---------------------------------------------------------------------
  // Deck controller
  // ---------------------------------------------------------------------

  /** `(i + 1) % n` */
  function NextIndex(i: nat, n: nat): (r: nat)
    requires i < n
    ensures r < n
    ensures r == if i == n - 1 then 0 else i + 1
  {
    (i + 1) % n
  }

  /** `(i - 1 + n) % n` */
  function PrevIndex(i: nat, n: nat): (r: nat)
    requires i < n
    ensures r < n
    ensures r == if i == 0 then n - 1 else i - 1
  {
    (i - 1 + n) % n
  }

  /** Going forward then back returns to the same card, and so does going back then forward. */
  lemma PrevUndoesNext(i: nat, n: nat)
    requires i < n
    ensures PrevIndex(NextIndex(i, n), n) == i
    ensures NextIndex(PrevIndex(i, n), n) == i
  {
  }

  /** The index after `k` presses of "next". */
  function Advance(i: nat, n: nat, k: nat): (r: nat)
    requires i < n
    ensures r < n
  {
    if k == 0 then i else NextIndex(Advance(i, n, k - 1), n)
  }

  /** Up to one full round, `k` presses move `k` places forward, wrapping once past the end. */
  lemma {:induction false} AdvanceWraps(i: nat, n: nat, k: nat)
    requires i < n && k <= n
    ensures Advance(i, n, k) == if i + k < n then i + k else i + k - n
  {
    if k > 0 {
      AdvanceWraps(i, n, k - 1);
    }
  }

  /** Pressing "next" once per card comes back to the starting card. */
  lemma FullCycle(i: nat, n: nat)
    requires i < n
    ensures Advance(i, n, n) == i
  {
    AdvanceWraps(i, n, n);
  }

  /** One second of the countdown: down by one, or back to the full
      interval once it has reached one. */
  function Countdown(t: int, full: int): (r: int)
    requires full >= 1
    ensures 1 <= r
    ensures 1 <= t <= full ==> r <= full && (if t == 1 then r == full else r == t - 1)
  {
    if t <= 1 then full else t - 1
  }

  /** `[0, 1, ..., n - 1]` */
  function Identity(n: nat): (r: seq<nat>)
    ensures |r| == n && forall i :: 0 <= i < n ==> r[i] == i
  {
    seq(n, i => i)
  }

  /** `order` lists every card index exactly once. */
  ghost predicate IsPermutation(order: seq<nat>, n: nat) {
    multiset(order) == multiset(Identity(n))
  }

  /** The card shown at position `i`, as written: `shuffledOrder[i] || i`.
      An order entry of 0 is falsy, so the position falls back to itself. */
  function ShownCardAsWritten(order: seq<nat>, i: nat): (c: nat)
    ensures (i < |order| && order[i] != 0) ==> c == order[i]
    ensures !(i < |order| && order[i] != 0) ==> c == i
  {
    if i < |order| && order[i] != 0 then order[i] else i
  }

  /** After a shuffle to `[1, 0]`, both positions show card 1 and card 0 is never shown. */
  lemma ShownCardAsWrittenSkipsCardZero()
    ensures IsPermutation([1, 0], 2)
    ensures ShownCardAsWritten([1, 0], 0) == 1 && ShownCardAsWritten([1, 0], 1) == 1
  {
    assert Identity(2) == [0, 1];
    assert multiset([1, 0]) == multiset([0, 1]);
  }

  /** The card shown at position `i`: `shuffledOrder[i] ?? i`. */
  function ShownCard(order: seq<nat>, i: nat): (c: nat)
    ensures i < |order| ==> c == order[i]
    ensures i >= |order| ==> c == i
  {
    if i < |order| then order[i] else i
  }

  /** With a permutation as order, walking the positions shows every card:
      each card appears at some position. */
  lemma {:induction false} ShownCardCoversDeck(order: seq<nat>, n: nat, c: nat)
    requires IsPermutation(order, n)
    requires c < n
    ensures |order| == n
    ensures exists i :: 0 <= i < n && ShownCard(order, i) == c
  {
    assert |order| == |multiset(order)| == |multiset(Identity(n))| == n;
    assert Identity(n)[c] == c;
    assert c in multiset(Identity(n));
    assert c in order;
    var i :| 0 <= i < |order| && order[i] == c;
    assert ShownCard(order, i) == c;
  }

  /** Every entry of a permutation is a card index. */
  lemma PermutationInRange(order: seq<nat>, n: nat, i: nat)
    requires IsPermutation(order, n) && i < |order|
    ensures order[i] < n
  {
    assert order[i] in multiset(order);
    assert order[i] in multiset(Identity(n));
    var j :| 0 <= j < n && Identity(n)[j] == order[i];
  }

  /** Keyboard keys the deck reacts to (`e.key`). */
  datatype Key = ArrowRight | Space | ArrowLeft | Enter | Other

  /** The autoplay intervals the view offers, in milliseconds (3000 is the initial one). */
  predicate IsSpeed(ms: nat) { ms == 3000 || ms == 4000 || ms == 8000 || ms == 12000 }

  /** The deck's state for a fixed list of `count` cards. */
  class Deck {
    const count: nat
    var currentIndex: nat
    var order: seq<nat>
    var autoPlay: bool
    var speed: nat
    var timeRemaining: int

    ghost predicate Valid()
      reads this
    {
      && (count > 0 ==> currentIndex < count)
      && (count == 0 ==> currentIndex == 0)
      && IsPermutation(order, count)
      && IsSpeed(speed)
      && (autoPlay && count > 0 ==> 1 <= timeRemaining <= speed / 1000)
    }

    /** Mounting the view: first card, identity order, autoplay off at three seconds. */
    constructor (n: nat)
      ensures Valid()
      ensures count == n && currentIndex == 0 && order == Identity(n)
      ensures !autoPlay && speed == 3000 && timeRemaining == 3
    {
      count := n;
      currentIndex := 0;
      order := Identity(n);
      autoPlay := false;
      speed := 3000;
      timeRemaining := 3;
    }

    /** The card on screen (with the order lookup corrected, see `ShownCardAsWritten`). */
    function Shown(): (c: nat)
      reads this
      requires Valid() && count > 0
      ensures c < count
      ensures currentIndex < |order| && c == order[currentIndex]
    {
      assert |order| == |multiset(order)| == |multiset(Identity(count))| == count;
      PermutationInRange(order, count, currentIndex);
      ShownCard(order, currentIndex)
    }

    /** `nextCard`: the following card, wrapping; a manual step restarts the countdown. */
    method Next()
      requires Valid()
      modifies this
      ensures Valid()
      ensures count > 0 ==> currentIndex == NextIndex(old(currentIndex), count)
      ensures count == 0 ==> currentIndex == old(currentIndex)
      ensures timeRemaining == if autoPlay then speed / 1000 else old(timeRemaining)
      ensures order == old(order) && autoPlay == old(autoPlay) && speed == old(speed)
    {
      if count > 0 {
        currentIndex := (currentIndex + 1) % count;
      }
      if autoPlay {
        timeRemaining := speed / 1000;
      }
    }

    /** `prevCard`: the preceding card, wrapping; a manual step restarts the countdown. */
    method Prev()
      requires Valid()
      modifies this
      ensures Valid()
      ensures count > 0 ==> currentIndex == PrevIndex(old(currentIndex), count)
      ensures count == 0 ==> currentIndex == old(currentIndex)
      ensures timeRemaining == if autoPlay then speed / 1000 else old(timeRemaining)
      ensures order == old(order) && autoPlay == old(autoPlay) && speed == old(speed)
    {
      if count > 0 {
        currentIndex := (currentIndex - 1 + count) % count;
      }
      if autoPlay {
        timeRemaining := speed / 1000;
      }
    }

    /** `shuffleCards`: `shuffled` is the order the random sort produced,
        some rearrangement of the current one. */
    method Shuffle(shuffled: seq<nat>)
      requires Valid()
      requires multiset(shuffled) == multiset(order)
      modifies this
      ensures Valid()
      ensures order == shuffled && IsPermutation(order, count)
      ensures currentIndex == 0
      ensures autoPlay == old(autoPlay) && speed == old(speed) && timeRemaining == old(timeRemaining)
    {
      order := shuffled;
      currentIndex := 0;
    }

    /** `resetCards`: first card, identity order, autoplay off. */
    method Reset()
      requires Valid()
      modifies this
      ensures Valid()
      ensures currentIndex == 0 && order == Identity(count) && !autoPlay
      ensures speed == old(speed) && timeRemaining == old(timeRemaining)
    {
      currentIndex := 0;
      order := Identity(count);
      autoPlay := false;
    }

    /** `toggleAutoPlay`: flips autoplay; switching it on restarts the countdown. */
    method ToggleAutoPlay()
      requires Valid()
      modifies this
      ensures Valid()
      ensures autoPlay == !old(autoPlay)
      ensures timeRemaining == if autoPlay then speed / 1000 else old(timeRemaining)
      ensures currentIndex == old(currentIndex) && order == old(order) && speed == old(speed)
    {
      autoPlay := !autoPlay;
      if autoPlay {
        timeRemaining := speed / 1000;
      }
    }

    /** Choosing an interval. While autoplaying, a new interval restarts the
        timers with it; choosing the interval already selected changes no
        state, so the timers run on. */
    method SetSpeed(ms: nat)
      requires Valid() && IsSpeed(ms)
      modifies this
      ensures Valid()
      ensures speed == ms
      ensures timeRemaining == if autoPlay && count > 0 && ms != old(speed) then ms / 1000 else old(timeRemaining)
      ensures currentIndex == old(currentIndex) && order == old(order) && autoPlay == old(autoPlay)
    {
      if autoPlay && count > 0 && ms != speed {
        timeRemaining := ms / 1000;
      }
      speed := ms;
    }

    /** The one-second countdown timer firing (it only runs while autoplaying a non-empty deck). */
    method Tick()
      requires Valid() && autoPlay && count > 0
      modifies this
      ensures Valid()
      ensures timeRemaining == Countdown(old(timeRemaining), speed / 1000)
      ensures currentIndex == old(currentIndex) && order == old(order)
      ensures autoPlay == old(autoPlay) && speed == old(speed)
    {
      if timeRemaining <= 1 {
        timeRemaining := speed / 1000;
      } else {
        timeRemaining := timeRemaining - 1;
      }
    }

    /** The advance timer firing every `speed` milliseconds while autoplaying;
        unlike a manual step it leaves the countdown alone. */
    method AutoAdvance()
      requires Valid() && autoPlay && count > 0
      modifies this
      ensures Valid()
      ensures currentIndex == NextIndex(old(currentIndex), count)
      ensures timeRemaining == old(timeRemaining) && order == old(order)
      ensures autoPlay == old(autoPlay) && speed == old(speed)
    {
      currentIndex := (currentIndex + 1) % count;
    }

    /** The keyboard bindings: right arrow or space for next, left arrow
        for previous, Enter for autoplay. */
    method KeyPress(key: Key)
      requires Valid()
      modifies this
      ensures Valid()
      ensures (key == ArrowRight || key == Space) && count > 0 ==>
        currentIndex == NextIndex(old(currentIndex), count)
      ensures key == ArrowLeft && count > 0 ==> currentIndex == PrevIndex(old(currentIndex), count)
      ensures key == Enter ==> autoPlay == !old(autoPlay) && currentIndex == old(currentIndex)
      ensures key == Other ==>
        currentIndex == old(currentIndex) && autoPlay == old(autoPlay) && timeRemaining == old(timeRemaining)
      ensures order == old(order) && speed == old(speed)
    {
      match key
      case ArrowRight => Next();
      case Space => Next();
      case ArrowLeft => Prev();
      case Enter => ToggleAutoPlay();
      case Other =>
    }
  }
}

=== FILE: InputPanel.dfy ===
/** The summarizer's input panel: the text area with its hundred-character
    preview and edit lock, the PDF drop and picker handlers, the page-text
    normalisation applied to what the PDF library returns, and the rule that
    enables the Generate button.  The PDF library itself is abstracted: a
    document is the sequence of its pages, each page the sequence of its text
    item strings, or an error message when loading threw. */
module InputPanel {
  import opened Common

  // ---------------------------------------------------------------------
  // Text area
  // ---------------------------------------------------------------------

  const DisplayLimit := 100
  const Ellipsis := "..."

  /** What the text area shows for `input`. */
  function DisplayText(input: string): (r: string)
    ensures |input| <= DisplayLimit ==> r == input
    ensures |input| > DisplayLimit ==>
      |r| == DisplayLimit + |Ellipsis| && IsPrefix(r[..DisplayLimit], input) && r[DisplayLimit..] == Ellipsis
    ensures |r| <= DisplayLimit + |Ellipsis|
  {
    if |input| > DisplayLimit then input[..DisplayLimit] + Ellipsis else input
  }

  /** Past the first hundred characters a long input is hidden: two long
      inputs that agree there look the same. */
  lemma DisplayHidesTail(a: string, b: string)
    requires |a| > DisplayLimit && |b| > DisplayLimit
    requires a[..DisplayLimit] == b[..DisplayLimit]
    ensures DisplayText(a) == DisplayText(b)
  {
  }

  /** The text area is read-only once the input is longer than the preview. */
  predicate ReadOnly(input: string) { |input| > DisplayLimit }

  /** The input after the text area reports `typed`: the change is taken only
      while the input still fits the preview. */
  function Edited(input: string, typed: string): (r: string)
    ensures r == typed || r == input
  {
    if |input| <= DisplayLimit then typed else input
  }

  /** An edit lands exactly when the field is writable (or changes nothing). */
  lemma EditLandsIffWritable(input: string, typed: string)
    ensures Edited(input, typed) == typed <==> !ReadOnly(input) || typed == input
  {
  }

  // ---------------------------------------------------------------------
  // Page text normalisation
  // ---------------------------------------------------------------------

  /** `items.join(sep)`: the items in order with the separator between
      each two neighbours. */
  function Join(items: seq<string>, sep: string): (r: string)
    ensures items == [] ==> r == []
    ensures |items| == 1 ==> r == items[0]
    ensures |items| > 1 ==> |r| == |items[0]| + |sep| + |Join(items[1..], sep)| && r[..|items[0]|] == items[0]
  {
    if items == [] then []
    else if |items| == 1 then items[0]
    else items[0] + sep + Join(items[1..], sep)
  }

  /** Joining more than one item puts the last one after the join of the
      others and one separator. */
  lemma {:induction false} JoinLast(items: seq<string>, sep: string)
    requires |items| > 1
    ensures Join(items, sep) == Join(items[..|items| - 1], sep) + sep + items[|items| - 1]
    decreases |items|
  {
    var n := |items|;
    if n == 2 {
      assert items[..1] == [items[0]] && items[1..] == [items[1]];
    } else {
      JoinLast(items[1..], sep);
      assert items[1..][..n - 2] == items[..n - 1][1..];
      assert items[1..][n - 2] == items[n - 1];
    }
  }

  /** No two whitespace characters are adjacent. */
  predicate NoDoubleSpace(s: string) {
    forall i :: 0 < i < |s| ==> !IsSpace(s[i - 1]) || !IsSpace(s[i])
  }

  /** The only whitespace character in `s` is the plain space. */
  predicate OnlyPlainSpaces(s: string) {
    forall i :: 0 <= i < |s| && IsSpace(s[i]) ==> s[i] == ' '
  }

  /** `s.replace(/\s+/g, ' ')`: each maximal run of whitespace becomes one
      plain space. */
  function Collapse(s: string): (r: string)
    ensures |r| <= |s|
    ensures OnlyPlainSpaces(r)
    ensures NoDoubleSpace(r)
    ensures s != [] && !IsSpace(s[0]) ==> r != [] && r[0] == s[0]
    ensures s != [] && IsSpace(s[0]) ==> r != [] && r[0] == ' '
    decreases |s|
  {
    if s == [] then []
    else if IsSpace(s[0]) then
      var k := LeadingSpaces(s);
      var rest := Collapse(s[k..]);
      assert s[k..] != [] ==> !IsSpace(s[k..][0]);
      [' '] + rest
    else
      [s[0]] + Collapse(s[1..])
  }

  /** The leading whitespace run is the only prefix of whitespace that is
      followed by a non-space character or the end. */
  lemma {:induction false} LeadingSpacesUnique(s: string, k: nat)
    requires k <= |s| && AllSpace(s[..k])
    requires k < |s| ==> !IsSpace(s[k])
    ensures LeadingSpaces(s) == k
    decreases k
  {
    if k > 0 {
      assert IsSpace(s[0]) by { assert s[0] == s[..k][0]; }
      assert s[1..][..k - 1] == s[..k][1..];
      assert k - 1 < |s[1..]| ==> s[1..][k - 1] == s[k];
      LeadingSpacesUnique(s[1..], k - 1);
    }
  }

  /** A whitespace run never reaches across a non-space character, so the
      text on either side of one collapses on its own. */
  lemma {:induction false} CollapseAppend(a: string, b: string)
    requires a != [] && !IsSpace(a[|a| - 1])
    ensures Collapse(a + b) == Collapse(a) + Collapse(b)
    decreases |a|
  {
    var ab := a + b;
    assert ab[0] == a[0];
    if IsSpace(a[0]) {
      var k := LeadingSpaces(a);
      assert k < |a|;
      assert ab[..k] == a[..k];
      assert ab[k] == a[k];
      LeadingSpacesUnique(ab, k);
      assert ab[k..] == a[k..] + b;
      assert a[k..][|a[k..]| - 1] == a[|a| - 1];
      CollapseAppend(a[k..], b);
    } else if |a| > 1 {
      assert ab[1..] == a[1..] + b;
      assert a[1..][|a[1..]| - 1] == a[|a| - 1];
      CollapseAppend(a[1..], b);
    } else {
      assert ab[1..] == b;
      assert a[1..] == [];
    }
  }

  /** The whitespace between two words becomes exactly one space: words are
      neither glued together nor pushed further apart. */
  lemma CollapseWordBreak(a: string, w: string, b: string)
    requires a != [] && !IsSpace(a[|a| - 1])
    requires w != [] && AllSpace(w)
    requires b != [] && !IsSpace(b[0])
    ensures Collapse(a + w + b) == Collapse(a) + " " + Collapse(b)
  {
    assert a + w + b == a + (w + b);
    CollapseAppend(a, w + b);
    assert (w + b)[..|w|] == w;
    assert (w + b)[|w|] == b[0];
    LeadingSpacesUnique(w + b, |w|);
    assert (w + b)[|w|..] == b;
  }

  /** Text ending in a non-space character still does after collapsing. */
  lemma {:induction false} CollapseKeepsLast(s: string)
    requires s != [] && !IsSpace(s[|s| - 1])
    ensures Collapse(s) != [] && Collapse(s)[|Collapse(s)| - 1] == s[|s| - 1]
    decreases |s|
  {
    if |s| > 1 {
      if IsSpace(s[0]) {
        var k := LeadingSpaces(s);
        assert k < |s|;
        assert s[k..][|s[k..]| - 1] == s[|s| - 1];
        CollapseKeepsLast(s[k..]);
      } else {
        assert s[1..][|s[1..]| - 1] == s[|s| - 1];
        CollapseKeepsLast(s[1..]);
      }
    }
  }

  /** The non-whitespace characters of `s`, in order. */
  function NonSpace(s: string): (r: string)
    ensures |r| <= |s|
    ensures forall i :: 0 <= i < |r| ==> !IsSpace(r[i])
  {
    if s == [] then []
    else if IsSpace(s[0]) then NonSpace(s[1..])
    else [s[0]] + NonSpace(s[1..])
  }

  lemma {:induction false} NonSpaceAppend(a: string, b: string)
    ensures NonSpace(a + b) == NonSpace(a) + NonSpace(b)
    decreases |a|
  {
    if a != [] {
      assert (a + b)[1..] == a[1..] + b;
      NonSpaceAppend(a[1..], b);
    } else {
      assert a + b == b;
    }
  }

  lemma {:induction false} NonSpaceBlank(s: string)
    ensures NonSpace(s) == [] <==> AllSpace(s)
    decreases |s|
  {
    if s != [] {
      NonSpaceBlank(s[1..]);
      if AllSpace(s) {
        assert AllSpace(s[1..]) by {
          forall i | 0 <= i < |s[1..]| ensures IsSpace(s[1..][i]) {
            assert s[1..][i] == s[i + 1];
          }
        }
      }
      if IsSpace(s[0]) && AllSpace(s[1..]) {
        forall i | 0 <= i < |s| ensures IsSpace(s[i]) {
          if i > 0 { assert s[i] == s[1..][i - 1]; }
        }
      }
    }
  }

  /** Collapsing whitespace keeps every other character, in order. */
  lemma {:induction false} CollapseKeepsText(s: string)
    ensures NonSpace(Collapse(s)) == NonSpace(s)
    decreases |s|
  {
    if s != [] {
      if IsSpace(s[0]) {
        var k := LeadingSpaces(s);
        CollapseKeepsText(s[k..]);
        assert ([' '] + Collapse(s[k..]))[1..] == Collapse(s[k..]);
        assert s == s[..k] + s[k..];
        NonSpaceAppend(s[..k], s[k..]);
        NonSpaceBlank(s[..k]);
      } else {
        CollapseKeepsText(s[1..]);
        assert ([s[0]] + Collapse(s[1..]))[1..] == Collapse(s[1..]);
      }
    }
  }

  /** `trim` keeps the slice its bounds name. */
  lemma TrimIsSlice(s: string)
    ensures Trim(s) == s[TrimBounds(s).0..TrimBounds(s).1]
  {
  }

  /** Trimming keeps every non-whitespace character, in order. */
  lemma TrimKeepsText(s: string)
    ensures NonSpace(Trim(s)) == NonSpace(s)
  {
    var b := TrimBounds(s);
    TrimIsSlice(s);
    var head, kept, tail := s[..b.0], s[b.0..b.1], s[b.1..];
    assert s[..b.1] == head + kept;
    assert s == s[..b.1] + tail;
    NonSpaceAppend(s[..b.1], tail);
    NonSpaceAppend(head, kept);
    NonSpaceBlank(head);
    NonSpaceBlank(tail);
  }

  /** The text of one page: its items joined by spaces, whitespace runs
      collapsed, then trimmed. */
  function PageText(items: seq<string>): string {
    Trim(Collapse(Join(items, " ")))
  }

  /** A join of nonempty items, each starting and ending with a non-space
      character, starts with the first item's first character and ends with
      the last item's last character. */
  lemma JoinEnds(items: seq<string>)
    requires items != []
    requires forall i :: 0 <= i < |items| ==> items[i] != [] && IsTrimmed(items[i])
    ensures Join(items, " ") != [] && IsTrimmed(Join(items, " "))
    ensures Join(items, " ")[0] == items[0][0]
  {
    var j := Join(items, " ");
    var last := items[|items| - 1];
    if |items| > 1 {
      JoinLast(items, " ");
    }
    assert j[|j| - 1] == last[|last| - 1];
  }

  /** Collapsing a join of trimmed nonempty items collapses each item and
      keeps exactly one space between neighbours. */
  lemma {:induction false} CollapseJoin(items: seq<string>)
    requires forall i :: 0 <= i < |items| ==> items[i] != [] && IsTrimmed(items[i])
    ensures Collapse(Join(items, " ")) == Join(Map(items, Collapse), " ")
    decreases |items|
  {
    if |items| > 1 {
      var rest := Join(items[1..], " ");
      CollapseJoin(items[1..]);
      JoinEnds(items[1..]);
      assert Join(items, " ") == items[0] + " " + rest;
      CollapseWordBreak(items[0], " ", rest);
      var m := Map(items, Collapse);
      assert m[1..] == Map(items[1..], Collapse);
    }
  }

  /** Collapsing keeps a nonempty string free of whitespace at its ends. */
  lemma CollapseTrimmed(x: string)
    requires x != [] && IsTrimmed(x)
    ensures Collapse(x) != [] && IsTrimmed(Collapse(x))
  {
    CollapseKeepsLast(x);
  }

  /** Items that are nonempty and carry no whitespace at their ends come out
      collapsed and joined by exactly one space: neighbouring items stay
      apart, and nothing else is added or lost. */
  lemma PageTextOfTrimmedItems(items: seq<string>)
    requires forall i :: 0 <= i < |items| ==> items[i] != [] && IsTrimmed(items[i])
    ensures PageText(items) == Join(Map(items, Collapse), " ")
  {
    var m := Map(items, Collapse);
    var j := Join(m, " ");
    CollapseJoin(items);
    assert PageText(items) == Trim(j);
    if items != [] {
      forall i | 0 <= i < |m| ensures m[i] != [] && IsTrimmed(m[i]) {
        CollapseTrimmed(items[i]);
      }
      JoinEnds(m);
      TrimmedFixpoint(j);
    }
  }

  /** Trimming keeps a text's spacing: still no two whitespace characters
      in a row, and still only plain spaces. */
  lemma TrimKeepsSpacing(c: string)
    requires NoDoubleSpace(c) && OnlyPlainSpaces(c)
    ensures NoDoubleSpace(Trim(c)) && OnlyPlainSpaces(Trim(c))
  {
    var b := TrimBounds(c);
    TrimIsSlice(c);
    var t := c[b.0..b.1];
    forall i | 0 < i < |t| ensures !IsSpace(t[i - 1]) || !IsSpace(t[i]) {
      assert t[i - 1] == c[b.0 + i - 1] && t[i] == c[b.0 + i];
    }
    forall i | 0 <= i < |t| && IsSpace(t[i]) ensures t[i] == ' ' {
      assert t[i] == c[b.0 + i];
    }
  }

  /** A page's text has no whitespace at either end, no two whitespace
      characters in a row, only plain spaces, and exactly the non-whitespace
      characters of its items; when the items are nonempty with no
      whitespace at their ends, each is collapsed and neighbours are
      separated by exactly one space. */
  lemma PageTextNormalised(items: seq<string>)
    ensures IsTrimmed(PageText(items))
    ensures NoDoubleSpace(PageText(items))
    ensures OnlyPlainSpaces(PageText(items))
    ensures NonSpace(PageText(items)) == NonSpace(Join(items, " "))
    ensures (forall i :: 0 <= i < |items| ==> items[i] != [] && IsTrimmed(items[i])) ==>
      PageText(items) == Join(Map(items, Collapse), " ")
  {
    var c := Collapse(Join(items, " "));
    TrimKeepsSpacing(c);
    TrimKeepsText(c);
    CollapseKeepsText(Join(items, " "));
    if forall i :: 0 <= i < |items| ==> items[i] != [] && IsTrimmed(items[i]) {
      PageTextOfTrimmedItems(items);
    }
  }

  /** A page yields no text exactly when all its items are whitespace. */
  lemma PageTextEmptyIffBlank(items: seq<string>)
    ensures PageText(items) == [] <==> AllSpace(Join(items, " "))
  {
    var j := Join(items, " ");
    PageTextNormalised(items);
    NonSpaceBlank(j);
    NonSpaceBlank(PageText(items));
  }

  // ---------------------------------------------------------------------
  // Whole-document extraction
  // ---------------------------------------------------------------------

  const PageBreak := "\n\n"

  /** The text of each page, in page order. */
  function PageTexts(pages: seq<seq<string>>): (r: seq<string>)
    ensures |r| == |pages|
    ensures forall i :: 0 <= i < |pages| ==> r[i] == PageText(pages[i])
  {
    Map(pages, PageText)
  }

  /** Every page text is trimmed. */
  lemma PageTextsTrimmed(pages: seq<seq<string>>)
    ensures forall i :: 0 <= i < |pages| ==> IsTrimmed(PageTexts(pages)[i])
  {
    forall i | 0 <= i < |pages| ensures IsTrimmed(PageTexts(pages)[i]) {
      PageTextNormalised(pages[i]);
    }
  }

  /** What one page adds to the running text: nothing for an empty page,
      otherwise its text and a blank line. */
  function Chunk(text: string): (r: string)
    ensures text == [] ==> r == []
    ensures text != [] ==> r == text + PageBreak
  {
    if text == [] then [] else text + PageBreak
  }

  /** The running text after pages with the given texts. */
  function Accumulated(texts: seq<string>): string
    decreases |texts|
  {
    if texts == [] then [] else Accumulated(texts[..|texts| - 1]) + Chunk(texts[|texts| - 1])
  }

  lemma AccumulatedStep(texts: seq<string>, n: nat)
    requires n < |texts|
    ensures Accumulated(texts[..n + 1]) == Accumulated(texts[..n]) + Chunk(texts[n])
  {
    assert texts[..n + 1][..n] == texts[..n];
  }

  /** The page loop of the extractor. */
  method ExtractText(pages: seq<seq<string>>) returns (fullText: string)
    ensures fullText == Accumulated(PageTexts(pages))
  {
    ghost var texts := PageTexts(pages);
    fullText := [];
    var pageNum := 1;
    while pageNum <= |pages|
      invariant 1 <= pageNum <= |pages| + 1
      invariant fullText == Accumulated(texts[..pageNum - 1])
    {
      var pageText := PageText(pages[pageNum - 1]);
      if pageText != [] {
        fullText := fullText + (pageText + PageBreak);
      }
      AccumulatedStep(texts, pageNum - 1);
      pageNum := pageNum + 1;
    }
    assert texts[..|pages|] == texts;
  }

  lemma AllSpaceAppend(a: string, b: string)
    ensures AllSpace(a + b) <==> AllSpace(a) && AllSpace(b)
  {
    if AllSpace(a + b) {
      forall i | 0 <= i < |b| ensures IsSpace(b[i]) {
        assert b[i] == (a + b)[|a| + i];
      }
      forall i | 0 <= i < |a| ensures IsSpace(a[i]) {
        assert a[i] == (a + b)[i];
      }
    }
  }

  /** All texts are empty. */
  predicate AllEmpty(texts: seq<string>) {
    forall i :: 0 <= i < |texts| ==> texts[i] == []
  }

  /** No page of the document has text. */
  predicate NoPageText(pages: seq<seq<string>>) {
    forall i :: 0 <= i < |pages| ==> PageText(pages[i]) == []
  }

  /** Over trimmed page texts, the running text is blank exactly when every
      page text is empty. */
  lemma {:induction false} AccumulatedBlankIffEmpty(texts: seq<string>)
    requires forall i :: 0 <= i < |texts| ==> IsTrimmed(texts[i])
    ensures AllSpace(Accumulated(texts)) <==> AllEmpty(texts)
    decreases |texts|
  {
    if texts != [] {
      var init := texts[..|texts| - 1];
      var last := texts[|texts| - 1];
      assert forall i :: 0 <= i < |init| ==> init[i] == texts[i];
      AccumulatedBlankIffEmpty(init);
      AllSpaceAppend(Accumulated(init), Chunk(last));
      if last != [] {
        assert Chunk(last)[0] == last[0];
      }
    }
  }

  /** The text the extractor hands to the input, if any: nothing when loading
      threw, nothing when the trimmed running text is empty. */
  function Extraction(pages: Result<seq<seq<string>>, string>): (r: Option<string>)
    ensures r.Some? ==> r.value != [] && IsTrimmed(r.value)
    ensures r.None? <==> pages.Err? || NoPageText(pages.value)
    ensures r.Some? ==> pages.Ok? && r.value == Trim(Accumulated(PageTexts(pages.value)))
  {
    if pages.Err? then None
    else
      PageTextsTrimmed(pages.value);
      AccumulatedBlankIffEmpty(PageTexts(pages.value));
      var t := Trim(Accumulated(PageTexts(pages.value)));
      if t == [] then None else Some(t)
  }

  /** Trimming keeps a prefix that has no whitespace at its ends. */
  lemma TrimKeepsTrimmedPrefix(a: string, p: string)
    requires p != [] && IsTrimmed(p) && IsPrefix(p, a)
    ensures IsPrefix(p, Trim(a))
  {
    assert a[0] == p[0] && a[|p| - 1] == p[|p| - 1];
    assert LeadingSpaces(a) == 0;
    var b := TrimBounds(a);
    TrimIsSlice(a);
    assert b.1 >= |p|;
    assert Trim(a)[..|p|] == a[..|p|];
  }

  lemma PrefixExtend(p: string, x: string, y: string)
    requires IsPrefix(p, x)
    ensures IsPrefix(p, x + y)
  {
    assert (x + y)[..|p|] == x[..|p|];
  }

  /** The first page's chunk opens the running text. */
  lemma {:induction false} FirstChunkLeads(texts: seq<string>)
    requires texts != []
    ensures IsPrefix(Chunk(texts[0]), Accumulated(texts))
    decreases |texts|
  {
    var init := texts[..|texts| - 1];
    var c := Chunk(texts[|texts| - 1]);
    if |texts| == 1 {
      assert init == [];
      assert Accumulated(texts) == [] + c;
      assert [] + c == c;
    } else {
      assert init[0] == texts[0];
      FirstChunkLeads(init);
      PrefixExtend(Chunk(texts[0]), Accumulated(init), c);
    }
  }

  /** A document whose first page has text yields text that starts with it. */
  lemma FirstPageLeads(pages: seq<seq<string>>)
    requires pages != [] && PageText(pages[0]) != []
    ensures Extraction(Ok(pages)).Some?
    ensures IsPrefix(PageText(pages[0]), Extraction(Ok(pages)).value)
  {
    var texts := PageTexts(pages);
    var a := Accumulated(texts);
    var p := texts[0];
    FirstChunkLeads(texts);
    assert a[..|p|] == (p + PageBreak)[..|p|] == p;
    PageTextsTrimmed(pages);
    TrimKeepsTrimmedPrefix(a, p);
  }

  // ---------------------------------------------------------------------
  // Files and the panel state
  // ---------------------------------------------------------------------

  datatype File = File(name: string, mimeType: string)

  const PdfType := "application/pdf"

  predicate IsPdf(f: File) { f.mimeType == PdfType }

  /** Whether the Generate button is disabled. */
  predicate SubmitDisabled(isLoading: bool, input: string, hasFile: bool, isExtracting: bool) {
    isLoading || (IsBlank(input) && !hasFile) || isExtracting
  }

  /** With no file attached, an enabled button means there is text to send,
      and conversely. */
  lemma EnabledWithoutFileMeansText(isLoading: bool, input: string, isExtracting: bool)
    requires !isLoading && !isExtracting
    ensures !SubmitDisabled(isLoading, input, false, isExtracting) <==> Trim(input) != []
  {
  }

  /** An attached file enables the button even over blank text, which the
      summarizer's own guard then turns away. */
  lemma FileEnablesBlankSubmit()
    ensures !SubmitDisabled(false, " ", true, false) && Trim(" ") == []
  {
    assert AllSpace(" ");
  }

  /** The state the panel reads and writes: the input text and the attached
      file (both owned by the summarizer page) and the drag highlight. */
  class Panel {
    var userInput: string
    var file: Option<File>
    var isDragging: bool

    constructor(userInput: string, file: Option<File>)
      ensures this.userInput == userInput && this.file == file && !isDragging
    {
      this.userInput := userInput;
      this.file := file;
      isDragging := false;
    }

    method DragOver()
      modifies this
      ensures isDragging && userInput == old(userInput) && file == old(file)
    {
      isDragging := true;
    }

    method DragLeave()
      modifies this
      ensures !isDragging && userInput == old(userInput) && file == old(file)
    {
      isDragging := false;
    }

    /** Attach a PDF and run the extractor over its pages. */
    method Attach(f: File, pages: Result<seq<seq<string>>, string>)
      requires IsPdf(f)
      modifies this
      ensures file == Some(f) && isDragging == old(isDragging)
      ensures Extraction(pages).Some? ==> userInput == Extraction(pages).value
      ensures Extraction(pages).None? ==> userInput == old(userInput)
    {
      file := Some(f);
      if pages.Ok? {
        var fullText := ExtractText(pages.value);
        var text := Trim(fullText);
        if text != [] {
          userInput := text;
        }
      }
    }

    /** A file dropped on the panel: only a PDF is kept. */
    method Drop(dropped: Option<File>, pages: Result<seq<seq<string>>, string>)
      modifies this
      ensures !isDragging
      ensures dropped.Some? && IsPdf(dropped.value) ==>
        file == dropped
        && userInput == (if Extraction(pages).Some? then Extraction(pages).value else old(userInput))
      ensures !(dropped.Some? && IsPdf(dropped.value)) ==> file == old(file) && userInput == old(userInput)
    {
      isDragging := false;
      if dropped.Some? && IsPdf(dropped.value) {
        Attach(dropped.value, pages);
      }
    }

    /** A file picked in the file dialog: only a PDF is kept. */
    method Select(selected: Option<File>, pages: Result<seq<seq<string>>, string>)
      modifies this
      ensures isDragging == old(isDragging)
      ensures selected.Some? && IsPdf(selected.value) ==>
        file == selected
        && userInput == (if Extraction(pages).Some? then Extraction(pages).value else old(userInput))
      ensures !(selected.Some? && IsPdf(selected.value)) ==> file == old(file) && userInput == old(userInput)
    {
      if selected.Some? && IsPdf(selected.value) {
        Attach(selected.value, pages);
      }
    }

    /** The text area reports `typed`. */
    method Type(typed: string)
      modifies this
      ensures userInput == Edited(old(userInput), typed)
      ensures file == old(file) && isDragging == old(isDragging)
    {
      if |userInput| <= DisplayLimit {
        userInput := typed;
      }
    }

    /** The Clear Text button under a long input. */
    method ClearText()
      modifies this
      ensures userInput == [] && !ReadOnly(userInput)
      ensures file == old(file) && isDragging == old(isDragging)
    {
      userInput := [];
    }

    method ClearFile()
      modifies this
      ensures file == None && userInput == old(userInput) && isDragging == old(isDragging)
    {
      file := None;
    }
  }
}

=== FILE: Mindmap.dfy ===
/** The mind-map view: the points taken from a summary, the radial graph
    built from them (one centre node, one satellite per point, one edge from
    the centre to each satellite), and the single-node selection. */
module Mindmap {
  import opened Common
  import opened Segmentation

  // ---------------------------------------------------------------------
  // Points
  // ---------------------------------------------------------------------

  predicate HasLetter(s: string) {
    exists i :: 0 <= i < |s| && IsAsciiLetter(s[i])
  }

  /** A piece is worth a node when it is longer than ten characters and
      holds at least one ASCII letter. */
  predicate IsPoint(s: string) { |s| > 10 && HasLetter(s) }

  /** At most this many points are shown (`slice(0, 12)`). */
  const MaxPoints := 12

  /** A piece of a sentence-or-line split never contains a newline: every
      newline starts a separator. */
  lemma {:induction false} PiecesAreSingleLines(s: string, p: nat, q: nat)
    requires p <= q <= |s|
    requires forall k :: p <= k < q ==> s[k] != '\n'
    ensures forall c :: c in SplitFrom(SentenceOrLine, s, p, q) ==> '\n' !in c.piece
    decreases |s| - q
  {
    if q < |s| {
      match MatchAt(SentenceOrLine, s, q)
      case None =>
        assert s[q] != '\n';
        PiecesAreSingleLines(s, p, q + 1);
      case Some(e) =>
        PiecesAreSingleLines(s, e, e);
        assert '\n' !in s[p..q];
    }
  }

  /** Trimming keeps the pieces on one line each. */
  lemma TrimmedPiecesAreSingleLines(summary: string)
    ensures forall x :: x in TrimmedPieces(SentenceOrLine, summary) ==> '\n' !in x
  {
    var pieces := TrimmedPieces(SentenceOrLine, summary);
    var cuts := Split(SentenceOrLine, summary);
    PiecesAreSingleLines(summary, 0, 0);
    forall x | x in pieces ensures '\n' !in x {
      var i :| 0 <= i < |pieces| && pieces[i] == x;
      TrimKeepsChars(cuts[i].piece);
      assert cuts[i] in cuts;
    }
  }

  /** The `points` memo. Empty without a summary; otherwise the trimmed
      sentences and lines that are longer than ten characters and contain an
      ASCII letter, in their order in the summary, at most twelve. */
  function Points(summary: string): (r: seq<string>)
    ensures summary == [] ==> r == []
    ensures |r| <= MaxPoints
    ensures forall x :: x in r ==> IsTrimmed(x) && IsPoint(x) && '\n' !in x
    ensures IsSubsequence(r, TrimmedPieces(SentenceOrLine, summary))
    ensures summary != [] ==>
      |r| == (if Count(TrimmedPieces(SentenceOrLine, summary), IsPoint) < MaxPoints
              then Count(TrimmedPieces(SentenceOrLine, summary), IsPoint) else MaxPoints)
    ensures summary != [] && |r| < MaxPoints ==>
      forall x :: x in TrimmedPieces(SentenceOrLine, summary) && IsPoint(x) ==> x in r
    ensures summary != [] ==> r == Filter(TrimmedPieces(SentenceOrLine, summary), IsPoint)[..|r|]
  {
    if summary == [] then []
    else
      var pieces := TrimmedPieces(SentenceOrLine, summary);
      var kept := Filter(pieces, IsPoint);
      FilterIsSubsequence(pieces, IsPoint);
      TrimmedPiecesAreSingleLines(summary);
      var n := if |kept| < MaxPoints then |kept| else MaxPoints;
      PrefixIsSubsequence(kept, pieces, n);
      kept[..n]
  }

  // ---------------------------------------------------------------------
  // Graph
  // ---------------------------------------------------------------------

  datatype NodeData = NodeData(text: string, fullText: Option<string>, isCenter: bool)

  datatype Node = Node(id: string, data: NodeData)

  datatype Edge = Edge(id: string, source: string, target: string)

  const CenterId := "center"

  function PointId(i: nat): string { "point-" + NatToString(i) }

  function EdgeId(i: nat): string { "edge-" + NatToString(i) }

  /** Satellite ids never clash with each other or with the centre. */
  lemma PointIdsDistinct(i: nat, j: nat)
    ensures PointId(i) != CenterId
    ensures PointId(i) == PointId(j) ==> i == j
  {
    assert PointId(i)[0] == 'p';
    if PointId(i) == PointId(j) {
      assert NatToString(i) == PointId(i)[6..] == PointId(j)[6..] == NatToString(j);
      NatToStringInjective(i, j);
    }
  }

  /** Display label: the point, or its first 120 characters and "...". */
  function Label(point: string): (r: string)
    ensures |point| <= 120 ==> r == point
    ensures |point| > 120 ==> |r| == 123 && r[..120] == point[..120] && r[120..] == "..."
  {
    if |point| > 120 then point[..120] + "..." else point
  }

  /** The centre label: the summary's title when it has a nonempty one,
      otherwise "Summary Overview". */
  function CenterLabel(title: Option<string>): (r: string)
    ensures r != []
    ensures title.Some? && title.value != [] ==> r == title.value
  {
    if title.Some? && title.value != [] then title.value else "Summary Overview"
  }

  /** The radius of the circle the satellites sit on: 25 per point, and
      never under 200. */
  function Radius(n: nat): (r: int)
    ensures r >= 200 && r >= 25 * n
    ensures n <= 8 ==> r == 200
    ensures n > 8 ==> r == 25 * n
  {
    Max(200, n * 25)
  }

  function Satellite(points: seq<string>, i: nat): Node
    requires i < |points|
  {
    Node(PointId(i), NodeData(Label(points[i]), Some(points[i]), false))
  }

  /** The nodes of the graph: none without points, else the centre followed by one satellite per point. */
  function Nodes(points: seq<string>, title: Option<string>): (r: seq<Node>)
    ensures points == [] ==> r == []
    ensures points != [] ==> |r| == |points| + 1
    ensures points != [] ==> r[0].id == CenterId && r[0].data.isCenter && r[0].data.text == CenterLabel(title)
    ensures forall i :: 0 <= i < |points| ==>
      && r[i + 1].id == PointId(i)
      && !r[i + 1].data.isCenter
      && r[i + 1].data.fullText == Some(points[i])
      && r[i + 1].data.text == Label(points[i])
  {
    if points == [] then []
    else
      [Node(CenterId, NodeData(CenterLabel(title), None, true))]
        + seq(|points|, i requires 0 <= i < |points| => Satellite(points, i))
  }

  /** The edges: one per point, from the centre to that point's node. */
  function Edges(points: seq<string>): (r: seq<Edge>)
    ensures |r| == |points|
    ensures forall i :: 0 <= i < |points| ==>
      r[i].id == EdgeId(i) && r[i].source == CenterId && r[i].target == PointId(i)
  {
    seq(|points|, i requires 0 <= i < |points| => Edge(EdgeId(i), CenterId, PointId(i)))
  }

  /** No two nodes share an id. */
  predicate DistinctIds(nodes: seq<Node>) {
    forall i, j :: 0 <= i < j < |nodes| ==> nodes[i].id != nodes[j].id
  }

  /** The graph is well formed: distinct node ids, and every edge joins the
      centre to the satellite of the same index, a node of the graph. */
  lemma GraphWellFormed(points: seq<string>, title: Option<string>)
    ensures DistinctIds(Nodes(points, title))
    ensures forall i :: 0 <= i < |points| ==>
      Edges(points)[i].source == Nodes(points, title)[0].id
      && Edges(points)[i].target == Nodes(points, title)[i + 1].id
  {
    var nodes := Nodes(points, title);
    forall i, j | 0 <= i < j < |nodes| ensures nodes[i].id != nodes[j].id {
      if i == 0 {
        PointIdsDistinct(j - 1, j - 1);
      } else {
        PointIdsDistinct(i - 1, j - 1);
      }
    }
  }

  // ---------------------------------------------------------------------
  // Selection
  // ---------------------------------------------------------------------

  /** A node paired with whether it is drawn as selected (`updatedNodes`). */
  datatype ShownNode = ShownNode(node: Node, selected: bool)

  function Highlight(nodes: seq<Node>, selected: Option<string>): (r: seq<ShownNode>)
    ensures |r| == |nodes|
    ensures forall i :: 0 <= i < |nodes| ==>
      r[i].node == nodes[i] && (r[i].selected <==> selected == Some(nodes[i].id))
  {
    seq(|nodes|, i requires 0 <= i < |nodes| => ShownNode(nodes[i], selected == Some(nodes[i].id)))
  }

  /** With distinct ids at most one node is flagged, and it is the selected one. */
  lemma AtMostOneSelected(nodes: seq<Node>, selected: Option<string>, i: nat, j: nat)
    requires DistinctIds(nodes)
    requires i < |nodes| && j < |nodes|
    requires Highlight(nodes, selected)[i].selected && Highlight(nodes, selected)[j].selected
    ensures i == j
    ensures selected == Some(nodes[i].id)
  {
  }

  /** The id of the selected node (`selectedNode`). */
  class Selection {
    var selected: Option<string>

    constructor ()
      ensures selected == None
    {
      selected := None;
    }

    /** `onNodeClick`: clicking the selected node clears the selection, any other node selects it. */
    method NodeClick(id: string)
      modifies this
      ensures old(selected) == Some(id) ==> selected == None
      ensures old(selected) != Some(id) ==> selected == Some(id)
    {
      selected := if selected == Some(id) then None else Some(id);
    }

    /** `onPaneClick`: clicking the canvas clears the selection. */
    method PaneClick()
      modifies this
      ensures selected == None
    {
      selected := None;
    }
  }
}

=== FILE: Notes.dfy ===
/** The notes page: the list of the user's notes, creating a note from a
    title, deleting one, and the title search. The requests to the notes
    service are inputs: their outcome is passed in. */
module Notes {
  import opened Common

  datatype Note = Note(id: string, title: string, createdAt: string)

  /** How the create request ended: it threw, the response was not ok, or
      the created note came back. */
  datatype CreateOutcome = Threw | NotOk | Created(note: Note)

  predicate KeepsNote(id: string, n: Note) { n.id != id }

  /** Removes the note with the id, keeping the others in order. */
  function WithoutNote(notes: seq<Note>, id: string): (r: seq<Note>)
    ensures forall n :: n in r ==> n.id != id
    ensures forall n :: n in notes && n.id != id ==> n in r
    ensures IsSubsequence(r, notes)
    ensures forall n :: multiset(r)[n] == if n.id != id then multiset(notes)[n] else 0
  {
    FilterIsSubsequence(notes, n => KeepsNote(id, n));
    Filter(notes, n => KeepsNote(id, n))
  }

  predicate TitleMatches(n: Note, query: string) {
    Includes(Lower(n.title), Lower(query))
  }

  /** `filteredNotes`: the notes whose lower-cased title contains the
      lower-cased query, in list order. */
  function FilteredNotes(notes: seq<Note>, query: string): (r: seq<Note>)
    ensures IsSubsequence(r, notes)
    ensures forall n :: n in r ==> TitleMatches(n, query)
    ensures forall n :: n in notes && TitleMatches(n, query) ==> n in r
    ensures forall n :: multiset(r)[n] == if TitleMatches(n, query) then multiset(notes)[n] else 0
  {
    FilterIsSubsequence(notes, n => TitleMatches(n, query));
    Filter(notes, n => TitleMatches(n, query))
  }

  /** An empty query lists every note. */
  lemma EmptyQueryListsAll(notes: seq<Note>)
    ensures FilteredNotes(notes, "") == notes
  {
    forall n | n in notes ensures TitleMatches(n, "") {
      IncludesEmpty(Lower(n.title));
    }
    FilterAll(notes, n => TitleMatches(n, ""));
  }

  /** The noun after the number of notes: singular for one. */
  function CollectionLabel(n: nat): (r: string)
    ensures r == "note" <==> n == 1
  {
    CountNoun(n, "note", "notes")
  }

  /** What the list area shows. */
  datatype ListView = NoNotesYet | NoMatchingNotes | Listing(shown: seq<Note>)

  function View(notes: seq<Note>, query: string): (r: ListView)
    ensures r.Listing? ==> r.shown != []
  {
    var shown := FilteredNotes(notes, query);
    if shown == [] then (if notes == [] then NoNotesYet else NoMatchingNotes) else Listing(shown)
  }

  /** "No notes yet" exactly when there are no notes; "no matching notes"
      only when there are notes and a non-empty query hides them all. */
  lemma ViewDistinguishesEmptyStates(notes: seq<Note>, query: string)
    ensures View(notes, query) == NoNotesYet <==> notes == []
    ensures View(notes, query) == NoMatchingNotes ==> notes != [] && query != []
    ensures View(notes, query).Listing? ==> View(notes, query).shown == FilteredNotes(notes, query) != []
  {
    if notes == [] {
      assert FilteredNotes(notes, query) == [];
    }
    if View(notes, query) == NoMatchingNotes && query == [] {
      EmptyQueryListsAll(notes);
    }
  }

  class NotesPage {
    var notes: seq<Note>
    var loading: bool
    var title: string
    var query: string

    constructor ()
      ensures notes == [] && loading && title == [] && query == []
    {
      notes := [];
      loading := true;
      title := [];
      query := [];
    }

    /** The mount effect: the fetched list, if the request succeeded; the
        page stops loading either way. */
    method Load(fetched: Option<seq<Note>>)
      modifies this
      ensures notes == (if fetched.Some? then fetched.value else old(notes))
      ensures !loading && title == old(title) && query == old(query)
    {
      if fetched.Some? {
        notes := fetched.value;
      }
      loading := false;
    }

    method SetTitle(t: string)
      modifies this
      ensures title == t && notes == old(notes) && loading == old(loading) && query == old(query)
    {
      title := t;
    }

    method SetQuery(q: string)
      modifies this
      ensures query == q && notes == old(notes) && loading == old(loading) && title == old(title)
    {
      query := q;
    }

    /** `createNote`: a blank title sends nothing; a failed request leaves
        the list and the title; a created note goes first and the title is
        cleared. */
    method Create(outcome: CreateOutcome)
      modifies this
      ensures IsBlank(old(title)) || !outcome.Created? ==> notes == old(notes) && title == old(title)
      ensures !IsBlank(old(title)) && outcome.Created? ==> notes == [outcome.note] + old(notes) && title == []
      ensures loading == old(loading) && query == old(query)
    {
      if Trim(title) == [] {
        return;
      }
      match outcome {
        case Threw =>
        case NotOk =>
        case Created(note) =>
          notes := [note] + notes;
          title := [];
      }
    }

    /** `handleDelete`: once the request has completed, whatever its
        status, the note is dropped; a request that threw changes nothing. */
    method Delete(id: string, threw: bool)
      modifies this
      ensures notes == (if threw then old(notes) else WithoutNote(old(notes), id))
      ensures loading == old(loading) && title == old(title) && query == old(query)
    {
      if !threw {
        notes := WithoutNote(notes, id);
      }
    }
  }
}

=== FILE: Quiz.dfy ===
/** The quiz component: its steps (setup, taking the quiz, results), the
    answers given, the scoring of a submitted quiz, and the error shown on
    the setup screen. Clock readings are parameters. */
module Quiz {
  import opened Common
  import opened QuizGenerator

  // ---------------------------------------------------------------------
  // Scoring
  // ---------------------------------------------------------------------

  /** `a === b` on two possibly undefined values. */
  predicate StrictEquals(a: Option<Json>, b: Option<Json>) {
    (a.None? && b.None?) || (a.Some? && b.Some? && SameValue(a.value, b.value))
  }

  /** `answers[index] === q.correct` */
  predicate AnsweredCorrectly(quiz: seq<Json>, answers: map<nat, Json>, i: nat)
    requires i < |quiz|
  {
    StrictEquals(if i in answers then Some(answers[i]) else None, Field(quiz[i], "correct"))
  }

  /** How many of the first `n` questions were answered correctly. */
  function CountCorrect(quiz: seq<Json>, answers: map<nat, Json>, n: nat): (r: nat)
    requires n <= |quiz|
    ensures r <= n
    ensures r == n <==> forall i :: 0 <= i < n ==> AnsweredCorrectly(quiz, answers, i)
    ensures r == 0 <==> forall i :: 0 <= i < n ==> !AnsweredCorrectly(quiz, answers, i)
  {
    if n == 0 then 0
    else CountCorrect(quiz, answers, n - 1) + (if AnsweredCorrectly(quiz, answers, n - 1) then 1 else 0)
  }

  /** `score`: the length of `quiz.filter((q, index) => answers[index] === q.correct)`. */
  function Score(quiz: seq<Json>, answers: map<nat, Json>): (r: nat)
    ensures r <= |quiz|
    ensures r == |quiz| <==> forall i :: 0 <= i < |quiz| ==> AnsweredCorrectly(quiz, answers, i)
  {
    CountCorrect(quiz, answers, |quiz|)
  }

  /** A score below the total rounds to less than 100% as long as the quiz
      has fewer than 200 questions. */
  lemma PercentBelowFull(part: nat, whole: nat)
    requires 0 < whole < 200 && part < whole
    ensures Percent(part, whole) < 100
  {
    var r := RoundDiv(100 * part, whole);
    if r >= 100 {
      MulMono(2 * whole, 100, r);
    }
  }

  /** The percentage is 100 exactly when every answer is correct (for
      fewer than 200 questions, see `PerfectWithOneWrong`). */
  lemma PerfectIffAllCorrect(quiz: seq<Json>, answers: map<nat, Json>)
    requires 0 < |quiz| < 200
    ensures Percent(Score(quiz, answers), |quiz|) == 100 <==>
      forall i :: 0 <= i < |quiz| ==> AnsweredCorrectly(quiz, answers, i)
  {
    if Score(quiz, answers) < |quiz| {
      PercentBelowFull(Score(quiz, answers), |quiz|);
    }
  }

  /** With 200 questions one wrong answer still rounds to 100%. */
  lemma PerfectWithOneWrong()
    ensures Percent(199, 200) == 100
  {
    RoundUnique(100 * 199, 200, 100);
  }

  datatype Grade = APlus | A | B | C | D | F

  function GradeName(g: Grade): string {
    match g
    case APlus => "A+"
    case A => "A"
    case B => "B"
    case C => "C"
    case D => "D"
    case F => "F"
  }

  /** The grade thresholds of the `results` memo. */
  function GradeOf(percentage: int): (g: Grade)
    ensures g == APlus <==> percentage >= 90
    ensures g == A <==> 80 <= percentage < 90
    ensures g == B <==> 70 <= percentage < 80
    ensures g == C <==> 60 <= percentage < 70
    ensures g == D <==> 50 <= percentage < 60
    ensures g == F <==> percentage < 50
  {
    if percentage >= 90 then APlus
    else if percentage >= 80 then A
    else if percentage >= 70 then B
    else if percentage >= 60 then C
    else if percentage >= 50 then D
    else F
  }

  /** Grades from worst to best. */
  function Rank(g: Grade): nat {
    match g
    case F => 0
    case D => 1
    case C => 2
    case B => 3
    case A => 4
    case APlus => 5
  }

  /** A higher percentage never earns a lower grade, and each grade starts
      exactly at its threshold. */
  lemma GradeMonotone(p: int, q: int)
    requires p <= q
    ensures Rank(GradeOf(p)) <= Rank(GradeOf(q))
    ensures GradeOf(90) == APlus && GradeOf(89) == A && GradeOf(80) == A && GradeOf(79) == B
    ensures GradeOf(70) == B && GradeOf(60) == C && GradeOf(50) == D && GradeOf(49) == F
  {
  }

  /** `timeTaken`: whole seconds between two truthy clock readings, else 0. */
  function TimeTaken(startTime: Option<int>, endTime: Option<int>): (r: int)
    ensures !(startTime.Some? && startTime.value != 0 && endTime.Some? && endTime.value != 0) ==> r == 0
    ensures startTime.Some? && startTime.value != 0 && endTime.Some? && endTime.value != 0 ==>
      2000 * r <= 2 * (endTime.value - startTime.value) + 1000 < 2000 * (r + 1)
  {
    if endTime.Some? && endTime.value != 0 && startTime.Some? && startTime.value != 0
    then RoundDiv(endTime.value - startTime.value, 1000)
    else 0
  }

  /** A later end time never gives a negative duration. */
  lemma TimeTakenNonNegative(startTime: int, endTime: int)
    requires startTime <= endTime
    ensures TimeTaken(Some(startTime), Some(endTime)) >= 0
  {
    var r := TimeTaken(Some(startTime), Some(endTime));
    if r < 0 && startTime != 0 && endTime != 0 {
      MulMono(2000, r + 1, 0);
    }
  }

  /** What the results screen shows. */
  datatype Summary = Summary(score: nat, total: nat, percentage: int, grade: Grade, timeTaken: int)

  // ---------------------------------------------------------------------
  // Lifecycle
  // ---------------------------------------------------------------------

  /** `"setup"`, `"quiz"` and `"results"`. */
  datatype Step = Setup | Taking | Results

  const InitialConfig := Config("5", "medium", "mcq")

  datatype ConfigKey = NumQuestions | Difficulty | QuestionType

  const InitFailedMessage := "Failed to initialize Gemini AI. Please check your API key."
  const NoSummaryMessage := "No summary content available for quiz generation"
  const NoGeneratorMessage := "Quiz generator not initialized. Please check your Gemini API key."
  const NoQuestionsMessage := "No questions were generated"
  const GenericFailureMessage := "Failed to generate quiz. Please try again."

  /** The key set of an answer map lying inside `[0, n)` and having at
      least `n` keys covers the whole range. */
  lemma {:induction false} KeysCoverRange(answers: map<nat, Json>, n: nat)
    requires forall k :: k in answers ==> k < n
    requires |answers| >= n
    ensures forall i :: 0 <= i < n ==> i in answers
  {
    forall i | 0 <= i < n ensures i in answers {
      if i !in answers {
        var keys := answers.Keys;
        var rest := Range(n) - {i};
        assert keys <= rest;
        RangeSize(n);
        assert |rest| == n - 1 by {
          assert Range(n) == rest + {i};
        }
        SubsetSize(keys, rest);
      }
    }
  }

  function Range(n: nat): (r: set<nat>)
    ensures forall i :: i in r <==> 0 <= i < n
  {
    if n == 0 then {} else Range(n - 1) + {n - 1}
  }

  lemma {:induction false} RangeSize(n: nat)
    ensures |Range(n)| == n
  {
    if n > 0 {
      RangeSize(n - 1);
    }
  }

  lemma SubsetSize<T>(a: set<T>, b: set<T>)
    requires a <= b
    ensures |a| <= |b|
  {
    assert b == a + (b - a);
    assert a * (b - a) == {};
  }

  class QuizSession {
    const hasGenerator: bool
    var config: Config
    var quiz: seq<Json>
    var answers: map<nat, Json>
    var step: Step
    var startTime: Option<int>
    var endTime: Option<int>
    var error: Option<string>

    /** Answers only name questions of the quiz; the setup screen has no
        quiz; a quiz being taken or scored has a question and a start time;
        a scored quiz has every question answered. */
    predicate Valid()
      reads this
    {
      && (forall k :: k in answers ==> k < |quiz|)
      && (step == Setup ==> quiz == [] && answers == map[])
      && (step != Setup ==> |quiz| >= 1 && startTime.Some?)
      && (step == Results ==> endTime.Some? && forall i :: 0 <= i < |quiz| ==> i in answers)
    }

    /** The initial state; a generator that cannot be built leaves the setup error. */
    constructor (hasGenerator: bool)
      ensures Valid()
      ensures this.hasGenerator == hasGenerator
      ensures config == InitialConfig && quiz == [] && answers == map[] && step == Setup
      ensures startTime == None && endTime == None
      ensures error == if hasGenerator then None else Some(InitFailedMessage)
    {
      this.hasGenerator := hasGenerator;
      config := InitialConfig;
      quiz := [];
      answers := map[];
      step := Setup;
      startTime := None;
      endTime := None;
      error := if hasGenerator then None else Some(InitFailedMessage);
    }

    /** `handleConfigChange`: sets one setting and clears the error. */
    method ConfigChange(key: ConfigKey, value: string)
      modifies this
      requires Valid()
      ensures Valid()
      ensures config == match key
        case NumQuestions => old(config).(numQuestions := value)
        case Difficulty => old(config).(difficulty := value)
        case QuestionType => old(config).(questionType := value)
      ensures error == None
      ensures quiz == old(quiz) && answers == old(answers) && step == old(step)
      ensures startTime == old(startTime) && endTime == old(endTime)
    {
      match key {
        case NumQuestions => config := config.(numQuestions := value);
        case Difficulty => config := config.(difficulty := value);
        case QuestionType => config := config.(questionType := value);
      }
      error := None;
    }

    /** "Try Again" on the error screen. */
    method DismissError()
      modifies this
      requires Valid()
      ensures Valid()
      ensures error == None
      ensures config == old(config) && quiz == old(quiz) && answers == old(answers) && step == old(step)
      ensures startTime == old(startTime) && endTime == old(endTime)
    {
      error := None;
    }

    /** The component's `generateQuiz`, with the generator's reply given.
        Without a summary or a generator only the error is set; a refused
        reply or an empty question list also only sets the error; otherwise
        the quiz starts at `now` with no answers. A question count other
        than the one requested is accepted. Past the two guards the prompt
        built from the configuration and the summary is sent; `call` is the
        generator's answer to it. */
    method GenerateQuiz(summary: Option<string>, call: Result<string, string>,
                        parse: string -> Result<Json, string>, now: int)
      returns (prompt: Option<string>)
      modifies this
      requires Valid()
      ensures Valid()
      ensures config == old(config) && endTime == old(endTime)
      ensures (summary.None? || summary.value == []) ==>
        && error == Some(NoSummaryMessage)
        && quiz == old(quiz) && answers == old(answers) && step == old(step) && startTime == old(startTime)
      ensures summary.Some? && summary.value != [] && !hasGenerator ==>
        && error == Some(NoGeneratorMessage)
        && quiz == old(quiz) && answers == old(answers) && step == old(step) && startTime == old(startTime)
      ensures summary.Some? && summary.value != [] && hasGenerator && Generate(call, parse).Err? ==>
        && error == Some(FailureMessage(Generate(call, parse).error))
        && quiz == old(quiz) && answers == old(answers) && step == old(step) && startTime == old(startTime)
      ensures summary.Some? && summary.value != [] && hasGenerator && Generate(call, parse) == Ok([]) ==>
        && error == Some(NoQuestionsMessage)
        && quiz == old(quiz) && answers == old(answers) && step == old(step) && startTime == old(startTime)
      ensures summary.Some? && summary.value != [] && hasGenerator
              && Generate(call, parse).Ok? && Generate(call, parse).value != [] ==>
        && quiz == Generate(call, parse).value && step == Taking
        && answers == map[] && startTime == Some(now) && error == None
      ensures prompt.Some? <==> summary.Some? && summary.value != [] && hasGenerator
      ensures prompt.Some? ==> prompt.value == CreatePrompt(config, summary.value)
    {
      if summary.None? || summary.value == [] {
        error := Some(NoSummaryMessage);
        return None;
      }
      if !hasGenerator {
        error := Some(NoGeneratorMessage);
        return None;
      }
      prompt := Some(CreatePrompt(config, summary.value));
      Install(Generate(call, parse), now);
    }

    /** The part of `generateQuiz` after the generator has answered: a
        refusal or an empty question list sets the error; otherwise the quiz
        starts at `now` with no answers. */
    method Install(result: Result<seq<Json>, Failure>, now: int)
      modifies this
      requires Valid()
      requires result.Ok? ==> forall i :: 0 <= i < |result.value| ==> IsValidQuestion(result.value[i])
      ensures Valid()
      ensures config == old(config) && endTime == old(endTime)
      ensures result.Err? ==>
        && error == Some(FailureMessage(result.error))
        && quiz == old(quiz) && answers == old(answers) && step == old(step) && startTime == old(startTime)
      ensures result == Ok([]) ==>
        && error == Some(NoQuestionsMessage)
        && quiz == old(quiz) && answers == old(answers) && step == old(step) && startTime == old(startTime)
      ensures result.Ok? && result.value != [] ==>
        && quiz == result.value && step == Taking
        && answers == map[] && startTime == Some(now) && error == None
    {
      error := None;
      match result
      case Err(f) =>
        var message := FailureMessage(f);
        error := Some(if message != [] then message else GenericFailureMessage);
      case Ok(questions) =>
        if questions == [] {
          error := Some(NoQuestionsMessage);
        } else {
          quiz := questions;
          step := Taking;
          startTime := Some(now);
          answers := map[];
        }
    }

    /** `handleAnswer`: records the choice for one question, replacing any
        earlier one; the other answers stay. */
    method Answer(index: nat, choice: Json)
      modifies this
      requires Valid() && step == Taking && index < |quiz|
      ensures Valid()
      ensures answers == old(answers)[index := choice]
      ensures forall k :: k in old(answers) && k != index ==> k in answers && answers[k] == old(answers)[k]
      ensures config == old(config) && quiz == old(quiz) && step == old(step)
      ensures startTime == old(startTime) && endTime == old(endTime) && error == old(error)
    {
      answers := answers[index := choice];
    }

    /** `submitQuiz`: with questions left unanswered nothing changes;
        otherwise the quiz is scored at `now`. */
    method Submit(now: int)
      modifies this
      requires Valid() && step == Taking
      ensures Valid()
      ensures |quiz| - |answers| > 0 ==> step == old(step) && endTime == old(endTime)
      ensures |quiz| - |answers| <= 0 ==> step == Results && endTime == Some(now)
      ensures step == Results ==> forall i :: 0 <= i < |quiz| ==> i in answers
      ensures config == old(config) && quiz == old(quiz) && answers == old(answers)
      ensures startTime == old(startTime) && error == old(error)
    {
      var unanswered := |quiz| - |answers|;
      if unanswered > 0 {
        return;
      }
      KeysCoverRange(answers, |quiz|);
      endTime := Some(now);
      step := Results;
    }

    /** `resetQuiz`: back to the initial settings and the setup screen. */
    method Reset()
      modifies this
      requires Valid()
      ensures Valid()
      ensures config == InitialConfig && quiz == [] && answers == map[] && step == Setup
      ensures startTime == None && endTime == None && error == None
    {
      config := InitialConfig;
      quiz := [];
      answers := map[];
      step := Setup;
      startTime := None;
      endTime := None;
      error := None;
    }

    /** `retakeQuiz`: the same questions and settings, no answers, a new start. */
    method Retake(now: int)
      modifies this
      requires Valid() && step == Results
      ensures Valid()
      ensures answers == map[] && step == Taking && startTime == Some(now) && endTime == None
      ensures config == old(config) && quiz == old(quiz) && error == old(error)
    {
      answers := map[];
      step := Taking;
      startTime := Some(now);
      endTime := None;
    }

    /** The `results` memo: nothing before submission; afterwards the score
        out of the number of questions, the rounded percentage, its grade
        and the time taken. */
    function Scorecard(): (r: Option<Summary>)
      reads this
      requires Valid()
      ensures r.Some? <==> step == Results
      ensures r.Some? ==>
        && r.value.total == |quiz| >= 1
        && r.value.score <= r.value.total
        && 0 <= r.value.percentage <= 100
        && (r.value.score == r.value.total ==> r.value.percentage == 100)
        && (r.value.score == 0 ==> r.value.percentage == 0 && r.value.grade == F)
        && r.value.grade == GradeOf(r.value.percentage)
    ensures r.Some? ==>
        && r.value.score == Score(quiz, answers)
        && r.value.percentage == Percent(r.value.score, r.value.total)
        && r.value.timeTaken == TimeTaken(startTime, endTime)
    {
      if step != Results then None
      else
        var score := Score(quiz, answers);
        var percentage := Percent(score, |quiz|);
        Some(Summary(score, |quiz|, percentage, GradeOf(percentage), TimeTaken(startTime, endTime)))
    }
  }

  /** Below 200 questions the results screen shows 100% exactly when every
      answer is correct, and then the grade is A+. */
  lemma PerfectScorecard(q: QuizSession)
    requires q.Valid() && q.step == Results && |q.quiz| < 200
    ensures q.Scorecard().Some?
    ensures q.Scorecard().value.percentage == 100 <==>
      forall i :: 0 <= i < |q.quiz| ==> AnsweredCorrectly(q.quiz, q.answers, i)
    ensures q.Scorecard().value.percentage == 100 ==> q.Scorecard().value.grade == APlus
  {
    PerfectIffAllCorrect(q.quiz, q.answers);
  }
}

=== FILE: QuizGenerator.dfy ===
/** The quiz generator: the prompt sent to the language model, the
    extraction of the JSON object from its reply, and the validation of the
    question set. The model call and `JSON.parse` are inputs: the reply
    text (or the call's failure message) and a parse function. */
module QuizGenerator {
  import opened Common

  /** A parsed JSON value. Numbers are modelled as integers. */
  datatype Json =
    | JNull
    | JBool(b: bool)
    | JNum(n: int)
    | JStr(s: string)
    | JArr(items: seq<Json>)
    | JObj(fields: map<string, Json>)

  /** Property access `v.key`: `None` stands for `undefined`. */
  function Field(v: Json, key: string): (r: Option<Json>)
    ensures r.Some? <==> v.JObj? && key in v.fields
  {
    if v.JObj? && key in v.fields then Some(v.fields[key]) else None
  }

  /** JavaScript truthiness of a possibly undefined value. */
  predicate Truthy(v: Option<Json>) {
    match v
    case None => false
    case Some(JNull) => false
    case Some(JBool(b)) => b
    case Some(JNum(n)) => n != 0
    case Some(JStr(s)) => s != []
    case Some(JArr(_)) => true
    case Some(JObj(_)) => true
  }

  /** The equality `Array.prototype.includes` uses. Arrays and objects
      compare by identity, and two values coming out of `JSON.parse` are
      never the same object, so only primitives can be equal. */
  predicate SameValue(a: Json, b: Json) {
    match (a, b)
    case (JNull, JNull) => true
    case (JBool(x), JBool(y)) => x == y
    case (JNum(x), JNum(y)) => x == y
    case (JStr(x), JStr(y)) => x == y
    case _ => false
  }

  /** `choices.includes(correct)`. */
  predicate Contains(choices: seq<Json>, v: Json) {
    exists i :: 0 <= i < |choices| && SameValue(choices[i], v)
  }

  // ---------------------------------------------------------------------
  // JSON extraction: `responseText.match(/\{[\s\S]*\}/)`
  // ---------------------------------------------------------------------

  function FirstIndex(s: string, c: char, from: nat): (r: Option<nat>)
    requires from <= |s|
    ensures r.Some? ==> from <= r.value < |s| && s[r.value] == c
    ensures r.Some? ==> forall k :: from <= k < r.value ==> s[k] != c
    ensures r.None? ==> forall k :: from <= k < |s| ==> s[k] != c
    decreases |s| - from
  {
    if from == |s| then None
    else if s[from] == c then Some(from)
    else FirstIndex(s, c, from + 1)
  }

  function LastIndex(s: string, c: char, upto: nat): (r: Option<nat>)
    requires upto <= |s|
    ensures r.Some? ==> r.value < upto && s[r.value] == c
    ensures r.Some? ==> forall k :: r.value < k < upto ==> s[k] != c
    ensures r.None? ==> forall k :: 0 <= k < upto ==> s[k] != c
    decreases upto
  {
    if upto == 0 then None
    else if s[upto - 1] == c then Some(upto - 1)
    else LastIndex(s, c, upto - 1)
  }

  /** The bounds of the match: it starts at the first `{` and, the star
      being greedy, ends at the last `}`; there is a match exactly when some
      `}` follows some `{`. */
  function JsonSpan(text: string): (r: Option<(nat, nat)>)
    ensures r.Some? ==>
      && r.value.0 < r.value.1 < |text|
      && text[r.value.0] == '{' && text[r.value.1] == '}'
      && (forall k :: 0 <= k < r.value.0 ==> text[k] != '{')
      && (forall k :: r.value.1 < k < |text| ==> text[k] != '}')
    ensures r.None? ==>
      forall i, j :: 0 <= i < j < |text| && text[i] == '{' ==> text[j] != '}'
  {
    match (FirstIndex(text, '{', 0), LastIndex(text, '}', |text|))
    case (Some(i), Some(j)) => if i < j then Some((i, j)) else None
    case _ => None
  }

  /** The matched text, from the first `{` to the last `}` inclusive. */
  function ExtractJson(text: string): (r: Option<string>)
    ensures r.Some? <==> JsonSpan(text).Some?
    ensures r.Some? ==> r.value == text[JsonSpan(text).value.0..JsonSpan(text).value.1 + 1]
    ensures r.Some? ==> |r.value| >= 2 && r.value[0] == '{' && r.value[|r.value| - 1] == '}'
  {
    match JsonSpan(text)
    case Some((i, j)) => Some(text[i..j + 1])
    case None => None
  }

  // ---------------------------------------------------------------------
  // Validation
  // ---------------------------------------------------------------------

  /** Why a reply was refused. */
  datatype Failure =
    | CallFailed(message: string)
    | NoJson
    | ParseFailed(message: string)
    | MissingQuestions
    | NullQuestion(index: nat)
    | BadQuestion(index: nat)
    | BadChoices(index: nat)
    | CorrectNotInChoices(index: nat)

  /** The failures that name a question. */
  predicate Indexed(f: Failure) {
    f.NullQuestion? || f.BadQuestion? || f.BadChoices? || f.CorrectNotInChoices?
  }

  const FailurePrefix := "Quiz generation failed: "

  /** The message of the error the generator throws, prefix included. */
  function FailureMessage(f: Failure): (r: string)
    ensures IsPrefix(FailurePrefix, r)
  {
    var m := match f
      case CallFailed(msg) => msg
      case NoJson => "No valid JSON found in response"
      case ParseFailed(msg) => msg
      case MissingQuestions => "Invalid response format: missing questions array"
      // reading `q.id` of `null` throws the engine's TypeError
      case NullQuestion(_) => "Cannot read properties of null (reading 'id')"
      case BadQuestion(i) => "Invalid question format at index " + NatToString(i)
      case BadChoices(i) => "Invalid choices format at index " + NatToString(i)
      case CorrectNotInChoices(i) => "Correct answer not found in choices at index " + NatToString(i);
    FailurePrefix + m
  }

  /** A question the generator accepts, stated on its own: an object whose
      `id`, `question`, `correct` and `explanation` are truthy, whose
      `choices` is a non-empty array, and whose `correct` is one of them. */
  predicate IsValidQuestion(q: Json) {
    && q.JObj?
    && Truthy(Field(q, "id")) && Truthy(Field(q, "question"))
    && Truthy(Field(q, "correct")) && Truthy(Field(q, "explanation"))
    && Field(q, "choices").Some? && Field(q, "choices").value.JArr?
    && |Field(q, "choices").value.items| > 0
    && Contains(Field(q, "choices").value.items, Field(q, "correct").value)
  }

  /** The three checks of one question, in order. */
  function CheckQuestion(q: Json, index: nat): (r: Option<Failure>)
    ensures r.None? <==> IsValidQuestion(q)
    ensures r.Some? ==> Indexed(r.value) && r.value.index == index
  {
    if q.JNull? then Some(NullQuestion(index))
    else if !Truthy(Field(q, "id")) || !Truthy(Field(q, "question")) || !Truthy(Field(q, "choices"))
         || !Truthy(Field(q, "correct")) || !Truthy(Field(q, "explanation"))
    then Some(BadQuestion(index))
    else if !Field(q, "choices").value.JArr? || |Field(q, "choices").value.items| == 0
    then Some(BadChoices(index))
    else if !Contains(Field(q, "choices").value.items, Field(q, "correct").value)
    then Some(CorrectNotInChoices(index))
    else None
  }

  /** The `forEach` that throws at the first bad question from `from` on. */
  function FirstFailure(qs: seq<Json>, from: nat): (r: Option<Failure>)
    requires from <= |qs|
    ensures r.None? <==> forall i :: from <= i < |qs| ==> IsValidQuestion(qs[i])
    ensures r.Some? ==>
      && Indexed(r.value)
      && from <= r.value.index < |qs|
      && !IsValidQuestion(qs[r.value.index])
      && (forall i :: from <= i < r.value.index ==> IsValidQuestion(qs[i]))
      && r == CheckQuestion(qs[r.value.index], r.value.index)
    decreases |qs| - from
  {
    if from == |qs| then None
    else
      match CheckQuestion(qs[from], from)
      case Some(f) => Some(f)
      case None => FirstFailure(qs, from + 1)
  }

  /** `GeminiQuizGenerator.generateQuiz` after the model call: the question
      array of the reply, or the failure that made it throw. */
  function Generate(call: Result<string, string>, parse: string -> Result<Json, string>): (r: Result<seq<Json>, Failure>)
    ensures call.Err? ==> r == Err(CallFailed(call.error))
    ensures r.Ok? ==> forall i :: 0 <= i < |r.value| ==> IsValidQuestion(r.value[i])
  {
    match call
    case Err(msg) => Err(CallFailed(msg))
    case Ok(text) =>
      match ExtractJson(text)
      case None => Err(NoJson)
      case Some(json) =>
        match parse(json)
        case Err(msg) => Err(ParseFailed(msg))
        case Ok(data) =>
          var questions := Field(data, "questions");
          if !Truthy(questions) || !questions.value.JArr? then Err(MissingQuestions)
          else
            match FirstFailure(questions.value.items, 0)
            case Some(f) => Err(f)
            case None => Ok(questions.value.items)
  }

  /** The generator accepts a reply exactly when the call succeeded, its
      text holds a `{ ... }` span that parses, the parsed object has a
      `questions` array, and every question in it is valid; the accepted
      questions are that array. */
  lemma GenerateAcceptsExactly(call: Result<string, string>, parse: string -> Result<Json, string>)
    ensures Generate(call, parse).Ok? <==>
      && call.Ok?
      && ExtractJson(call.value).Some?
      && parse(ExtractJson(call.value).value).Ok?
      && Field(parse(ExtractJson(call.value).value).value, "questions").Some?
      && Field(parse(ExtractJson(call.value).value).value, "questions").value.JArr?
      && (forall q :: q in Field(parse(ExtractJson(call.value).value).value, "questions").value.items
            ==> IsValidQuestion(q))
    ensures Generate(call, parse).Ok? ==>
      Field(parse(ExtractJson(call.value).value).value, "questions") == Some(JArr(Generate(call, parse).value))
  {
    if call.Ok? && ExtractJson(call.value).Some? && parse(ExtractJson(call.value).value).Ok? {
      var data := parse(ExtractJson(call.value).value).value;
      var questions := Field(data, "questions");
      if questions.Some? && questions.value.JArr? {
        var items := questions.value.items;
        if forall q :: q in items ==> IsValidQuestion(q) {
          assert forall i :: 0 <= i < |items| ==> IsValidQuestion(items[i]) by {
            forall i | 0 <= i < |items| ensures IsValidQuestion(items[i]) {
              assert items[i] in items;
            }
          }
        }
      }
    }
  }

  /** A refused reply names the first bad question: every question before
      it is valid, and the failure is the one that question's checks give. */
  lemma RefusalNamesFirstBadQuestion(call: Result<string, string>, parse: string -> Result<Json, string>)
    requires Generate(call, parse).Err?
    requires Indexed(Generate(call, parse).error)
    ensures call.Ok? && ExtractJson(call.value).Some? && parse(ExtractJson(call.value).value).Ok?
    ensures
      var qs := Field(parse(ExtractJson(call.value).value).value, "questions").value.items;
      var i := Generate(call, parse).error.index;
      && i < |qs|
      && !IsValidQuestion(qs[i])
      && (forall k :: 0 <= k < i ==> IsValidQuestion(qs[k]))
  {
  }

  /** A reply with no `{ ... }` span is refused before anything is parsed. */
  lemma NoSpanIsRefused(call: Result<string, string>, parse: string -> Result<Json, string>)
    requires call.Ok? && JsonSpan(call.value).None?
    ensures Generate(call, parse) == Err(NoJson)
  {
  }

  // ---------------------------------------------------------------------
  // Prompt
  // ---------------------------------------------------------------------

  /** The quiz settings, as the setup form holds them. */
  datatype Config = Config(numQuestions: string, difficulty: string, questionType: string)

  /** `difficultyInstructions[difficulty]`; an unknown key interpolates as "undefined". */
  function DifficultyInstruction(difficulty: string): (r: string)
    ensures r == "undefined" <==> difficulty != "easy" && difficulty != "medium" && difficulty != "hard"
  {
    if difficulty == "easy" then
      "Focus on basic facts, definitions, and simple recall. Questions should test fundamental understanding."
    else if difficulty == "medium" then
      "Include application, comparison, and analysis questions. Test deeper comprehension and connections."
    else if difficulty == "hard" then
      "Create challenging questions requiring critical thinking, synthesis, and complex reasoning."
    else "undefined"
  }

  const McqInstruction :=
    "Create multiple choice questions with exactly 4 options each. Ensure:\n"
    + "        - Only one option is clearly correct\n"
    + "        - Distractors are plausible but incorrect\n"
    + "        - Options are roughly equal in length\n"
    + "        - Avoid \"all of the above\" or \"none of the above\""

  const TrueFalseInstruction :=
    "Create true/false questions that:\n"
    + "        - Test specific facts or concepts\n"
    + "        - Avoid ambiguous statements\n"
    + "        - Include both true and false correct answers\n"
    + "        - Choices should be exactly [\"True\", \"False\"]"

  /** `typeInstructions[questionType]`; an unknown key interpolates as "undefined". */
  function TypeInstruction(questionType: string): (r: string)
    ensures r == "undefined" <==> questionType != "mcq" && questionType != "true-false"
  {
    if questionType == "mcq" then McqInstruction
    else if questionType == "true-false" then TrueFalseInstruction
    else "undefined"
  }

  const PromptHead := "You are an expert educational assessment creator. Generate a high-quality quiz based STRICTLY on the provided content.\n\nCONTENT TO USE:\n---\n"

  const RequirementsHead := "\n---\n\nREQUIREMENTS:\n"

  function CountLine(config: Config): string {
    "- Generate exactly " + config.numQuestions + " questions"
  }

  function PromptTail(config: Config): string {
    RequirementsHead + CountLine(config) + PromptRest(config)
  }

  function PromptRest(config: Config): string {
    "\n"
    + "- Difficulty level: " + config.difficulty + " - " + DifficultyInstruction(config.difficulty) + "\n"
    + "- Question type: " + config.questionType + "\n"
    + "- " + TypeInstruction(config.questionType) + QualityStandards
    + config.difficulty + FormatClose
  }

  /** The fixed quality standards and the output format, up to the
      difficulty the example question repeats. */
  const QualityStandards :=
    "\n\n"
    + "QUALITY STANDARDS:\n"
    + "- Questions must be directly answerable from the provided content\n"
    + "- Avoid questions requiring external knowledge\n"
    + "- Each question should test a different concept/fact\n"
    + "- Provide clear, educational explanations for correct answers\n"
    + "- Use varied question stems and formats\n\n"
    + "OUTPUT FORMAT (JSON only, no markdown):\n"
    + "{\n"
    + "  \"questions\": [\n"
    + "    {\n"
    + "      \"id\": \"unique_id_string\",\n"
    + "      \"question\": \"Clear, specific question text\",\n"
    + "      \"choices\": [\"Option A\", \"Option B\", \"Option C\", \"Option D\"],\n"
    + "      \"correct\": \"Exact text of correct option\",\n"
    + "      \"explanation\": \"Clear explanation of why this answer is correct and others are wrong\",\n"
    + "      \"difficulty\": \""

  /** The rest of the output format after the example's difficulty. */
  const FormatClose :=
    "\",\n"
    + "      \"concept\": \"Main concept being tested\"\n"
    + "    }\n"
    + "  ]\n"
    + "}\n\n"
    + "Generate the quiz now:"

  /** `createPrompt`: the fixed template with the summary between the two
      `---` lines and the settings in the requirements. */
  function CreatePrompt(config: Config, summary: string): string {
    PromptHead + summary + PromptTail(config)
  }

  /** The prompt carries the summary verbatim, right after the head, and
      the line asking for the configured number of questions. */
  lemma PromptEmbedsSummary(config: Config, summary: string)
    ensures OccursAt(CreatePrompt(config, summary), summary, |PromptHead|)
    ensures Includes(CreatePrompt(config, summary), summary)
  {
    var p := CreatePrompt(config, summary);
    OccursInMiddle(PromptHead, summary, PromptTail(config));
    IncludesAt(p, summary);
  }

  /** The prompt asks for the configured number of questions. */
  lemma PromptAsksForCount(config: Config, summary: string)
    ensures Includes(CreatePrompt(config, summary), CountLine(config))
  {
    var p := CreatePrompt(config, summary);
    Regroup(PromptHead, summary, RequirementsHead, CountLine(config), PromptRest(config));
    OccursInMiddle(PromptHead + summary + RequirementsHead, CountLine(config), PromptRest(config));
    IncludesAt(p, CountLine(config));
  }
}

=== FILE: Segmentation.dfy ===
/** `String.prototype.split` with the three regular expressions the study
    views use, as a character scanner. A split is a sequence of cuts: each
    piece of text followed by the separator the pattern matched after it
    (the last piece has none). */
module Segmentation {
  import opened Common

  /** The split patterns of the flashcard and mind-map views. */
  datatype Pattern =
    | SentenceOrListItem  // /(?<=[.?!])\s+|(?<=\n)\s*[-•*]\s*|(?<=\n)\s*\d+\.\s*/
    | BlankLine           // /\n\s*\n/
    | SentenceOrLine      // /(?<=[.?!])\s+|\n+/

  predicate IsSentenceEnd(c: char) { c == '.' || c == '?' || c == '!' }

  predicate IsBullet(c: char) { c == '-' || c == '\U{2022}' || c == '*' }

  predicate IsNewline(c: char) { c == '\n' }

  /** End of the longest run of characters satisfying `p` from `i` (a greedy `p*`). */
  function Run(s: string, i: nat, p: char -> bool): (r: nat)
    requires i <= |s|
    ensures i <= r <= |s|
    ensures forall k :: i <= k < r ==> p(s[k])
    ensures r < |s| ==> !p(s[r])
    decreases |s| - i
  {
    if i == |s| || !p(s[i]) then i else Run(s, i + 1, p)
  }

  /** The last newline in `s[lo..hi]`, if any. */
  function LastNewline(s: string, lo: nat, hi: nat): (r: Option<nat>)
    requires lo <= hi <= |s|
    ensures r.Some? ==> lo <= r.value < hi && s[r.value] == '\n'
    ensures r.Some? ==> forall k :: r.value < k < hi ==> s[k] != '\n'
    ensures r.None? ==> forall k :: lo <= k < hi ==> s[k] != '\n'
    decreases hi
  {
    if hi == lo then None
    else if s[hi - 1] == '\n' then Some(hi - 1)
    else LastNewline(s, lo, hi - 1)
  }

  /** The end of the match of `pat` that starts exactly at `q` (the regular
      expression run sticky at `q`, its lookbehind seeing `s[q - 1]`), with
      JavaScript's greedy quantifiers and backtracking resolved by hand. */
  function MatchAt(pat: Pattern, s: string, q: nat): (m: Option<nat>)
    requires q < |s|
    ensures m.Some? ==> q < m.value <= |s|
  {
    var afterSentence := q > 0 && IsSentenceEnd(s[q - 1]) && IsSpace(s[q]);
    match pat
    case SentenceOrListItem =>
      if afterSentence then Some(Run(s, q, IsSpace))
      else if q > 0 && s[q - 1] == '\n' then
        var w := Run(s, q, IsSpace);
        if w < |s| && IsBullet(s[w]) then Some(Run(s, w + 1, IsSpace))
        else if w < |s| && IsDigit(s[w]) then
          var d := Run(s, w, IsDigit);
          if d < |s| && s[d] == '.' then Some(Run(s, d + 1, IsSpace)) else None
        else None
      else None
    case BlankLine =>
      if s[q] == '\n' then
        match LastNewline(s, q + 1, Run(s, q + 1, IsSpace))
        case Some(j) => Some(j + 1)
        case None => None
      else None
    case SentenceOrLine =>
      if afterSentence then Some(Run(s, q, IsSpace))
      else if s[q] == '\n' then Some(Run(s, q, IsNewline))
      else None
  }

  /** One piece of the split and the separator that followed it. */
  datatype Cut = Cut(piece: string, sep: string)

  /** Re-assembles the text from its cuts. */
  function Rejoin(cuts: seq<Cut>): string {
    if cuts == [] then [] else cuts[0].piece + cuts[0].sep + Rejoin(cuts[1..])
  }

  /** The split loop of the language specification: the current piece
      started at `p`, and a match is tried at `q`. Every separator but the
      last is nonempty (a match of `pat`, which always consumes a
      character), and the cuts rejoin to the scanned text. */
  function SplitFrom(pat: Pattern, s: string, p: nat, q: nat): (cuts: seq<Cut>)
    requires p <= q <= |s|
    ensures |cuts| >= 1
    ensures Rejoin(cuts) == s[p..]
    ensures cuts[|cuts| - 1].sep == []
    ensures forall i :: 0 <= i < |cuts| - 1 ==> cuts[i].sep != []
    decreases |s| - q
  {
    if q == |s| then [Cut(s[p..], [])]
    else
      match MatchAt(pat, s, q)
      case None => SplitFrom(pat, s, p, q + 1)
      case Some(e) =>
        var rest := SplitFrom(pat, s, e, e);
        assert s[p..] == s[p..q] + s[q..e] + s[e..];
        [Cut(s[p..q], s[q..e])] + rest
  }

  /** `s.split(pat)`, with the separators kept alongside. */
  function Split(pat: Pattern, s: string): (cuts: seq<Cut>)
    ensures |cuts| >= 1 && Rejoin(cuts) == s
  {
    SplitFrom(pat, s, 0, 0)
  }

  function Pieces(cuts: seq<Cut>): (r: seq<string>)
    ensures |r| == |cuts|
    ensures forall i :: 0 <= i < |cuts| ==> r[i] == cuts[i].piece
  {
    Map(cuts, (c: Cut) => c.piece)
  }

  /** `s.split(pat).map(s => s.trim())`. */
  function TrimmedPieces(pat: Pattern, s: string): (r: seq<string>)
    ensures |r| == |Split(pat, s)|
    ensures forall i :: 0 <= i < |r| ==> r[i] == Trim(Split(pat, s)[i].piece)
    ensures forall x :: x in r ==> IsTrimmed(x)
  {
    Map(Pieces(Split(pat, s)), Trim)
  }
}

=== FILE: StudyItems.dfy ===
/** The study-item manager: a list of study items that are added at the
    front, updated and deleted by id and toggled, a search with a category
    filter over it, and the counters of its dashboard. Clock readings are
    parameters; the date comparisons are given as predicates on the stored
    date strings. */
module StudyItems {
  import opened Common

  /** An item; `starred` is absent (falsy) until first toggled, modelled as false. */
  datatype Item = Item(id: int, title: string, description: string, priority: string, dueDate: string,
                       completed: bool, starred: bool, createdAt: int, updatedAt: int)

  /** The new-item form. */
  datatype Form = Form(title: string, description: string, priority: string, dueDate: string)

  const EmptyForm := Form("", "", "medium", "")

  datatype FormField = Title | Description | Priority | DueDate

  function SetFormField(f: Form, field: FormField, value: string): Form {
    match field
    case Title => f.(title := value)
    case Description => f.(description := value)
    case Priority => f.(priority := value)
    case DueDate => f.(dueDate := value)
  }

  /** The item `addItem` builds from the form at time `now`. */
  function NewItem(form: Form, now: int): (r: Item)
    ensures r.title == form.title && r.description == form.description
    ensures r.priority == form.priority && r.dueDate == form.dueDate
    ensures r.id == now && r.createdAt == now && r.updatedAt == now
    ensures !r.completed && !r.starred
  {
    Item(now, form.title, form.description, form.priority, form.dueDate, false, false, now, now)
  }

  /** The updates the toggles pass to `updateItem`. */
  datatype Update = SetCompleted(completed: bool) | SetStarred(starred: bool)

  /** An update merged into an item: the one changed flag, a fresh
      modification time, every other field as it was. */
  function Merge(item: Item, u: Update, now: int): (r: Item)
    ensures r.id == item.id && r.title == item.title && r.description == item.description
    ensures r.priority == item.priority && r.dueDate == item.dueDate && r.createdAt == item.createdAt
    ensures r.updatedAt == now
    ensures u.SetCompleted? ==> r.completed == u.completed && r.starred == item.starred
    ensures u.SetStarred? ==> r.starred == u.starred && r.completed == item.completed
  {
    match u
    case SetCompleted(c) => item.(completed := c, updatedAt := now)
    case SetStarred(s) => item.(starred := s, updatedAt := now)
  }

  /** Applies an update to every item carrying the id and leaves the other
      items as they are, in place in the list. */
  function UpdateById(items: seq<Item>, id: int, u: Update, now: int): (r: seq<Item>)
    ensures |r| == |items|
    ensures forall k :: 0 <= k < |items| ==> r[k] == (if items[k].id == id then Merge(items[k], u, now) else items[k])
  {
    Map(items, (item: Item) => if item.id == id then Merge(item, u, now) else item)
  }

  /** Updating by id touches nothing but the matching items, and changes
      only the updated field and the update time. */
  lemma UpdateOnlyMatching(items: seq<Item>, id: int, u: Update, now: int)
    ensures forall k :: 0 <= k < |items| && items[k].id != id ==> UpdateById(items, id, u, now)[k] == items[k]
    ensures forall k :: 0 <= k < |items| && items[k].id == id ==>
      var r := UpdateById(items, id, u, now)[k];
      && r.id == id && r.title == items[k].title && r.description == items[k].description
      && r.dueDate == items[k].dueDate && r.createdAt == items[k].createdAt && r.updatedAt == now
      && (u.SetCompleted? ==> r.completed == u.completed && r.starred == items[k].starred)
      && (u.SetStarred? ==> r.starred == u.starred && r.completed == items[k].completed)
  {
  }

  predicate KeepsItem(id: int, item: Item) { item.id != id }

  /** Removes every item carrying the id, keeping the others in order. */
  function DeleteById(items: seq<Item>, id: int): (r: seq<Item>)
    ensures forall x :: x in r ==> x.id != id
    ensures forall x :: x in items && x.id != id ==> x in r
    ensures IsSubsequence(r, items)
    ensures forall x :: multiset(r)[x] == if x.id != id then multiset(items)[x] else 0
  {
    FilterIsSubsequence(items, x => KeepsItem(id, x));
    Filter(items, x => KeepsItem(id, x))
  }

  /** The position of the first item with the id, if any. */
  function Find(items: seq<Item>, id: int): (r: Option<nat>)
    ensures r.Some? ==> r.value < |items| && items[r.value].id == id
    ensures r.Some? ==> forall k :: 0 <= k < r.value ==> items[k].id != id
    ensures r.None? ==> forall k :: 0 <= k < |items| ==> items[k].id != id
  {
    if items == [] then None
    else if items[0].id == id then Some(0)
    else match Find(items[1..], id)
      case Some(k) => Some(k + 1)
      case None => None
  }

  /** The new completion flag: the opposite of the first matching item's
      flag, where an absent item counts as not completed. */
  function ToggledCompleted(items: seq<Item>, id: int): bool {
    match Find(items, id)
    case Some(k) => !items[k].completed
    case None => true
  }

  function ToggledStarred(items: seq<Item>, id: int): bool {
    match Find(items, id)
    case Some(k) => !items[k].starred
    case None => true
  }

  function ToggleComplete(items: seq<Item>, id: int, now: int): (r: seq<Item>)
    ensures |r| == |items|
    ensures forall k :: 0 <= k < |items| && items[k].id != id ==> r[k] == items[k]
    ensures Find(items, id).Some? ==>
      r[Find(items, id).value].completed == !items[Find(items, id).value].completed
    ensures forall k :: 0 <= k < |items| && items[k].id == id ==>
      r[k] == Merge(items[k], SetCompleted(ToggledCompleted(items, id)), now) && r[k].updatedAt == now
    ensures Find(items, id).None? ==> r == items
  {
    UpdateById(items, id, SetCompleted(ToggledCompleted(items, id)), now)
  }

  function ToggleStar(items: seq<Item>, id: int, now: int): (r: seq<Item>)
    ensures |r| == |items|
    ensures forall k :: 0 <= k < |items| && items[k].id != id ==> r[k] == items[k]
    ensures Find(items, id).Some? ==>
      r[Find(items, id).value].starred == !items[Find(items, id).value].starred
    ensures forall k :: 0 <= k < |items| && items[k].id == id ==>
      r[k] == Merge(items[k], SetStarred(ToggledStarred(items, id)), now) && r[k].updatedAt == now
    ensures Find(items, id).None? ==> r == items
  {
    UpdateById(items, id, SetStarred(ToggledStarred(items, id)), now)
  }

  /** Toggling twice gives every item with the id the flag the first such
      item had before, and with distinct ids that is its own flag back. */
  lemma ToggleTwiceRestores(items: seq<Item>, id: int, t1: int, t2: int)
    requires Find(items, id).Some?
    ensures
      var once := ToggleComplete(items, id, t1);
      var twice := ToggleComplete(once, id, t2);
      forall k :: 0 <= k < |items| && items[k].id == id ==>
        twice[k].completed == items[Find(items, id).value].completed
    ensures
      var once := ToggleStar(items, id, t1);
      var twice := ToggleStar(once, id, t2);
      forall k :: 0 <= k < |items| && items[k].id == id ==>
        twice[k].starred == items[Find(items, id).value].starred
  {
    var f := Find(items, id).value;
    var once := ToggleComplete(items, id, t1);
    assert Find(once, id) == Some(f) by {
      assert forall k :: 0 <= k < |once| ==> once[k].id == items[k].id;
      FindByIds(items, once, id);
    }
    var starOnce := ToggleStar(items, id, t1);
    assert Find(starOnce, id) == Some(f) by {
      assert forall k :: 0 <= k < |starOnce| ==> starOnce[k].id == items[k].id;
      FindByIds(items, starOnce, id);
    }
  }

  /** `Find` looks only at ids. */
  lemma {:induction false} FindByIds(a: seq<Item>, b: seq<Item>, id: int)
    requires |a| == |b| && forall k :: 0 <= k < |a| ==> a[k].id == b[k].id
    ensures Find(a, id) == Find(b, id)
  {
    if a != [] && a[0].id != id {
      FindByIds(a[1..], b[1..], id);
    }
  }

  // ---------------------------------------------------------------------
  // Dates
  // ---------------------------------------------------------------------

  /** `isToday`: a missing date is never today. */
  function IsToday(dueDate: string, sameDay: string -> bool): (r: bool)
    ensures dueDate == [] ==> !r
  {
    dueDate != [] && sameDay(dueDate)
  }

  /** An item is overdue when it has a due date that lies before the
      current instant and it is not completed. The date comparison with the
      clock is the parameter `beforeNow`. */
  function IsOverdue(dueDate: string, completed: bool, beforeNow: string -> bool): (r: bool)
    ensures r ==> dueDate != [] && !completed
    ensures dueDate != [] && !completed ==> r == beforeNow(dueDate)
  {
    if dueDate == [] || completed then false else beforeNow(dueDate)
  }

  // ---------------------------------------------------------------------
  // Search and filter
  // ---------------------------------------------------------------------

  datatype Category = All | CompletedOnly | PendingOnly | StarredOnly | Today | Overdue

  /** The search matches the title or the description, ignoring case. */
  predicate MatchesSearch(item: Item, search: string) {
    Includes(Lower(item.title), Lower(search)) || Includes(Lower(item.description), Lower(search))
  }

  predicate MatchesCategory(item: Item, c: Category, sameDay: string -> bool, beforeNow: string -> bool) {
    match c
    case All => true
    case CompletedOnly => item.completed
    case PendingOnly => !item.completed
    case StarredOnly => item.starred
    case Today => IsToday(item.dueDate, sameDay)
    case Overdue => IsOverdue(item.dueDate, item.completed, beforeNow)
  }

  predicate Shown(item: Item, search: string, c: Category, sameDay: string -> bool, beforeNow: string -> bool) {
    MatchesSearch(item, search) && MatchesCategory(item, c, sameDay, beforeNow)
  }

  /** `filteredItems`: the items that match both, in list order. */
  function Filtered(items: seq<Item>, search: string, c: Category,
                    sameDay: string -> bool, beforeNow: string -> bool): (r: seq<Item>)
    ensures IsSubsequence(r, items)
    ensures forall x :: x in r ==> Shown(x, search, c, sameDay, beforeNow)
    ensures forall x :: x in items && Shown(x, search, c, sameDay, beforeNow) ==> x in r
    ensures forall x :: multiset(r)[x] == if Shown(x, search, c, sameDay, beforeNow) then multiset(items)[x] else 0
  {
    FilterIsSubsequence(items, x => Shown(x, search, c, sameDay, beforeNow));
    Filter(items, x => Shown(x, search, c, sameDay, beforeNow))
  }

  /** No search and the "all" tab show every item. */
  lemma FilterAllShowsEverything(items: seq<Item>, sameDay: string -> bool, beforeNow: string -> bool)
    ensures Filtered(items, "", All, sameDay, beforeNow) == items
  {
    forall x | x in items ensures Shown(x, "", All, sameDay, beforeNow) {
      IncludesEmpty(Lower(x.title));
    }
    FilterAll(items, x => Shown(x, "", All, sameDay, beforeNow));
  }

  /** The search ignores the case of the query. */
  lemma SearchIgnoresCase(item: Item, search: string)
    ensures MatchesSearch(item, search) == MatchesSearch(item, Lower(search))
  {
    LowerIdempotent(search);
  }

  // ---------------------------------------------------------------------
  // Counters
  // ---------------------------------------------------------------------

  predicate IsCompleted(item: Item) { item.completed }

  predicate IsPending(item: Item) { !item.completed }

  /** The completed and pending counters add up to the number of items. */
  lemma CountersAddUp(items: seq<Item>)
    ensures Count(items, IsCompleted) + Count(items, IsPending) == |items|
  {
    CountSplit(items, IsCompleted, IsPending);
  }

  /** The completion rate: 0 for an empty list, else the rounded
      percentage of completed items. */
  function CompletionRate(items: seq<Item>): (r: int)
    ensures 0 <= r <= 100
    ensures items == [] ==> r == 0
    ensures items != [] ==> r == Percent(Count(items, IsCompleted), |items|)
    ensures items != [] && (forall x :: x in items ==> x.completed) ==> r == 100
    ensures (forall x :: x in items ==> !x.completed) ==> r == 0
  {
    if |items| > 0 then
      var done := Count(items, IsCompleted);
      assert (forall x :: x in items ==> x.completed) ==> done == |items| by {
        if forall x :: x in items ==> x.completed {
          FilterAll(items, IsCompleted);
        }
      }
      assert (forall x :: x in items ==> !x.completed) ==> done == 0 by {
        if forall x :: x in items ==> !x.completed {
          NoneKept(items, IsCompleted);
        }
      }
      Percent(done, |items|)
    else 0
  }

  /** The noun after the number of items found: singular for one. */
  function FoundLabel(n: nat): (r: string)
    ensures r == "item" <==> n == 1
  {
    CountNoun(n, "item", "items")
  }

  // ---------------------------------------------------------------------
  // The manager
  // ---------------------------------------------------------------------

  class StudyManager {
    var items: seq<Item>
    var search: string
    var category: Category
    var form: Form
    var showForm: bool

    constructor ()
      ensures items == [] && search == [] && category == All && form == EmptyForm && !showForm
    {
      items := [];
      search := [];
      category := All;
      form := EmptyForm;
      showForm := false;
    }

    /** The mount effect: a saved list replaces the items. */
    method Restore(saved: Option<seq<Item>>)
      modifies this
      ensures items == (if saved.Some? then saved.value else old(items))
      ensures search == old(search) && category == old(category) && form == old(form) && showForm == old(showForm)
    {
      if saved.Some? {
        items := saved.value;
      }
    }

    method SetSearch(term: string)
      modifies this
      ensures search == term
      ensures items == old(items) && category == old(category) && form == old(form) && showForm == old(showForm)
    {
      search := term;
    }

    method SetCategory(c: Category)
      modifies this
      ensures category == c
      ensures items == old(items) && search == old(search) && form == old(form) && showForm == old(showForm)
    {
      category := c;
    }

    method SetShowForm(show: bool)
      modifies this
      ensures showForm == show
      ensures items == old(items) && search == old(search) && category == old(category) && form == old(form)
    {
      showForm := show;
    }

    method EditForm(field: FormField, value: string)
      modifies this
      ensures form == SetFormField(old(form), field, value)
      ensures items == old(items) && search == old(search) && category == old(category) && showForm == old(showForm)
    {
      form := SetFormField(form, field, value);
    }

    /** `addItem`: a blank title changes nothing; otherwise the item is put
        first, the form is emptied and closed. */
    method AddItem(now: int)
      modifies this
      ensures IsBlank(old(form).title) ==>
        items == old(items) && form == old(form) && showForm == old(showForm)
      ensures !IsBlank(old(form).title) ==>
        items == [NewItem(old(form), now)] + old(items) && form == EmptyForm && !showForm
      ensures search == old(search) && category == old(category)
    {
      if Trim(form.title) != [] {
        items := [NewItem(form, now)] + items;
        form := EmptyForm;
        showForm := false;
      }
    }

    method UpdateItem(id: int, u: Update, now: int)
      modifies this
      ensures items == UpdateById(old(items), id, u, now)
      ensures search == old(search) && category == old(category) && form == old(form) && showForm == old(showForm)
    {
      items := UpdateById(items, id, u, now);
    }

    method DeleteItem(id: int)
      modifies this
      ensures items == DeleteById(old(items), id)
      ensures search == old(search) && category == old(category) && form == old(form) && showForm == old(showForm)
    {
      items := DeleteById(items, id);
    }

    method ToggleCompleteItem(id: int, now: int)
      modifies this
      ensures items == ToggleComplete(old(items), id, now)
      ensures search == old(search) && category == old(category) && form == old(form) && showForm == old(showForm)
    {
      UpdateItem(id, SetCompleted(ToggledCompleted(items, id)), now);
    }

    method ToggleStarItem(id: int, now: int)
      modifies this
      ensures items == ToggleStar(old(items), id, now)
      ensures search == old(search) && category == old(category) && form == old(form) && showForm == old(showForm)
    {
      UpdateItem(id, SetStarred(ToggledStarred(items, id)), now);
    }
  }
}

=== FILE: Summarizer.dfy ===
/** The summarizer page: the chat-like history of inputs and generated
    summaries, the instructions its options select, submitting an input
    and saving the last summary. The model call and the requests to the
    notes service are inputs; clock readings are given as strings. */
module Summarizer {
  import opened Common
  import AgentPlan

  datatype Role = User | Assistant

  /** One entry of the history. */
  datatype Message = Message(role: Role, content: string, summary: Option<string>,
                             isError: bool, timestamp: Option<string>)

  const GeneratedNote := "Summary generated. Click below to view or copy."
  const ErrorNote := "Error generating summary. Please try again."

  function UserMessage(content: string, time: string): Message {
    Message(User, content, None, false, Some(time))
  }

  function SummaryMessage(summary: string, time: string): Message {
    Message(Assistant, GeneratedNote, Some(summary), false, Some(time))
  }

  const ErrorMessage := Message(Assistant, ErrorNote, None, true, None)

  /** The assistant entry that answers a submission: the summary when the
      model replied, the error entry when the call failed. */
  function ReplyMessage(reply: Option<string>, time: string): (m: Message)
    ensures m.role == Assistant
    ensures m.isError <==> reply.None?
    ensures m.summary == reply
  {
    if reply.Some? then SummaryMessage(reply.value, time) else ErrorMessage
  }

  /** A stored summarization of the note. */
  datatype Stored = Stored(inputText: string, summary: string, createdAt: string)

  /** The history a list of stored summarizations stands for: for each, a
      user entry with its input and an assistant entry with its summary. */
  function HistoryOf(data: seq<Stored>, timeOf: string -> string): (h: seq<Message>)
    ensures h == [] <==> data == []
    ensures data != [] ==> h[0].role == User && h[0].content == data[0].inputText
  {
    if data == [] then []
    else
      [UserMessage(data[0].inputText, timeOf(data[0].createdAt)),
       SummaryMessage(data[0].summary, timeOf(data[0].createdAt))]
      + HistoryOf(data[1..], timeOf)
  }

  /** Two entries per stored summarization, in order: the user entry with
      the input text, then the assistant entry with the summary. */
  lemma {:induction false} HistoryShape(data: seq<Stored>, timeOf: string -> string)
    ensures |HistoryOf(data, timeOf)| == 2 * |data|
    ensures forall k :: 0 <= k < |data| ==>
      && HistoryOf(data, timeOf)[2 * k] == UserMessage(data[k].inputText, timeOf(data[k].createdAt))
      && HistoryOf(data, timeOf)[2 * k + 1] == SummaryMessage(data[k].summary, timeOf(data[k].createdAt))
  {
    if data != [] {
      HistoryShape(data[1..], timeOf);
      var h := HistoryOf(data, timeOf);
      forall k | 1 <= k < |data|
        ensures h[2 * k] == UserMessage(data[k].inputText, timeOf(data[k].createdAt))
        ensures h[2 * k + 1] == SummaryMessage(data[k].summary, timeOf(data[k].createdAt))
      {
        assert data[k] == data[1..][k - 1];
        assert h[2 * k] == HistoryOf(data[1..], timeOf)[2 * (k - 1)];
        assert h[2 * k + 1] == HistoryOf(data[1..], timeOf)[2 * (k - 1) + 1];
      }
    }
  }

  lemma {:induction false} HistoryOfAppend(data: seq<Stored>, d: Stored, timeOf: string -> string)
    ensures HistoryOf(data + [d], timeOf) ==
      HistoryOf(data, timeOf) + [UserMessage(d.inputText, timeOf(d.createdAt)), SummaryMessage(d.summary, timeOf(d.createdAt))]
  {
    if data == [] {
      assert [d][1..] == [];
    } else {
      assert (data + [d])[1..] == data[1..] + [d];
      HistoryOfAppend(data[1..], d, timeOf);
    }
  }

  /** The `forEach` of `fetchSummarizations` that pushes two entries per item. */
  method BuildHistory(data: seq<Stored>, timeOf: string -> string) returns (h: seq<Message>)
    ensures h == HistoryOf(data, timeOf)
  {
    h := [];
    var i := 0;
    while i < |data|
      invariant 0 <= i <= |data|
      invariant h == HistoryOf(data[..i], timeOf)
    {
      assert data[..i + 1] == data[..i] + [data[i]];
      HistoryOfAppend(data[..i], data[i], timeOf);
      h := h + [UserMessage(data[i].inputText, timeOf(data[i].createdAt))];
      h := h + [SummaryMessage(data[i].summary, timeOf(data[i].createdAt))];
      i := i + 1;
    }
    assert data[..|data|] == data;
  }

  // ---------------------------------------------------------------------
  // Instructions
  // ---------------------------------------------------------------------

  /** `fast`, `thorough`, and anything else as balanced. */
  function StrategyInstruction(strategy: string): (r: string)
    ensures r == "Balance speed and thoroughness." <==> strategy != "fast" && strategy != "thorough"
  {
    if strategy == "fast" then "Prioritize speed and efficiency."
    else if strategy == "thorough" then "Be comprehensive and detailed in analysis."
    else "Balance speed and thoroughness."
  }

  /** `speed`, `creativity`, and anything else as accuracy. */
  function PriorityInstruction(priority: string): (r: string)
    ensures r == "Ensure maximum accuracy and precision." <==> priority != "speed" && priority != "creativity"
  {
    if priority == "speed" then "Generate quickly with good quality."
    else if priority == "creativity" then "Use creative and engaging language."
    else "Ensure maximum accuracy and precision."
  }

  /** Every unrecognised strategy or priority falls back to the default
      one's instruction, and the recognised choices give three different
      instructions each. */
  lemma InstructionFallbacks(strategy: string, priority: string)
    ensures strategy != "fast" && strategy != "thorough" ==>
      StrategyInstruction(strategy) == StrategyInstruction("balanced")
    ensures priority != "speed" && priority != "creativity" ==>
      PriorityInstruction(priority) == PriorityInstruction("accuracy")
    ensures StrategyInstruction("fast") != StrategyInstruction("thorough")
    ensures StrategyInstruction("fast") != StrategyInstruction("balanced")
    ensures StrategyInstruction("thorough") != StrategyInstruction("balanced")
    ensures PriorityInstruction("speed") != PriorityInstruction("creativity")
    ensures PriorityInstruction("speed") != PriorityInstruction("accuracy")
    ensures PriorityInstruction("creativity") != PriorityInstruction("accuracy")
  {
    assert StrategyInstruction("fast") == "Prioritize speed and efficiency.";
    assert StrategyInstruction("thorough") == "Be comprehensive and detailed in analysis.";
    assert StrategyInstruction("balanced") == "Balance speed and thoroughness.";
    assert PriorityInstruction("speed") == "Generate quickly with good quality.";
    assert PriorityInstruction("creativity") == "Use creative and engaging language.";
    assert PriorityInstruction("accuracy") == "Ensure maximum accuracy and precision.";
  }

  /** The summarization options of the input panel. */
  datatype Options = Options(length: string, format: string, focus: string)

  const InitialOptions := Options("medium", "paragraph", "keyPoints")

  /** The option a select of the input panel sets. */
  datatype OptionKey = Length | Format | Focus

  /** `lengthMap[length]`; `None` is undefined. */
  function LengthInstruction(length: string): (r: Option<string>)
    ensures r.Some? <==> length in {"short", "medium", "long"}
  {
    if length == "short" then Some("very concise (1-2 sentences)")
    else if length == "medium" then Some("concise (1 paragraph)")
    else if length == "long" then Some("detailed but still summarized (2-3 paragraphs)")
    else None
  }

  /** `formatMap[format]` */
  function FormatInstruction(format: string): (r: Option<string>)
    ensures r.Some? <==> format in {"paragraph", "bullet", "numbered"}
  {
    if format == "paragraph" then Some("a coherent paragraph")
    else if format == "bullet" then Some("bullet points")
    else if format == "numbered" then Some("numbered list")
    else None
  }

  /** `focusMap[focus]` */
  function FocusInstruction(focus: string): (r: Option<string>)
    ensures r.Some? <==> focus in {"keyPoints", "detailed", "actionItems"}
  {
    if focus == "keyPoints" then Some("focus on the key points and main ideas")
    else if focus == "detailed" then Some("include important details along with main ideas")
    else if focus == "actionItems" then Some("focus on action items and conclusions")
    else None
  }

  /** How a template literal shows a possibly undefined value. */
  function Interpolated(v: Option<string>): string {
    if v.Some? then v.value else "undefined"
  }

  /** The prompt up to the opening quote of the text. */
  function PromptSpecs(o: Options, p: AgentPlan.Preferences): string {
    "\n        Please summarize the following text according to these specifications:\n"
    + "        - Length: " + Interpolated(LengthInstruction(o.length)) + "\n"
    + "        - Format: " + Interpolated(FormatInstruction(o.format)) + "\n"
    + "        - Focus: " + Interpolated(FocusInstruction(o.focus)) + "\n"
    + "        - Strategy: " + StrategyInstruction(p.strategy) + "\n"
    + "        - Priority: " + PriorityInstruction(p.priority) + "\n"
    + "        \n"
    + "        Text to summarize:\n"
    + "        \""
  }

  const PromptFooter :=
    "\"\n\n"
    + "        Format the summary with clear, concise points using simple dashes (-) instead of asterisks.\n"
    + "        Make each point well-structured and easily readable. Avoid using *** or ** or * for formatting or highlighting.\n"
    + "        If the format is bullet points or numbered list, ensure each item is a complete sentence without the asterisks.\n"
    + "      "

  /** The prompt of `handleSubmit`. */
  function SummaryPrompt(o: Options, p: AgentPlan.Preferences, input: string): string {
    PromptSpecs(o, p) + input + PromptFooter
  }

  /** The prompt quotes the submitted text verbatim. */
  lemma PromptQuotesInput(o: Options, p: AgentPlan.Preferences, input: string)
    ensures OccursAt(SummaryPrompt(o, p, input), input, |PromptSpecs(o, p)|)
    ensures Includes(SummaryPrompt(o, p, input), input)
  {
    OccursInMiddle(PromptSpecs(o, p), input, PromptFooter);
    IncludesAt(SummaryPrompt(o, p, input), input);
  }

  // ---------------------------------------------------------------------
  // The page
  // ---------------------------------------------------------------------

  /** The summary waiting to be saved, with the input it came from. */
  datatype Generated = Generated(inputText: string, summary: string)

  class SummarizerPage {
    const noteId: string
    var userInput: string
    var hasFile: bool
    var history: seq<Message>
    var lastGenerated: Option<Generated>
    var prefs: AgentPlan.Preferences
    var options: Options

    constructor (noteId: string)
      ensures this.noteId == noteId
      ensures userInput == [] && !hasFile && history == [] && lastGenerated == None
      ensures prefs == AgentPlan.InitialPreferences && options == InitialOptions
    {
      this.noteId := noteId;
      userInput := [];
      hasFile := false;
      history := [];
      lastGenerated := None;
      prefs := AgentPlan.InitialPreferences;
      options := InitialOptions;
    }

    /** The mount effect: the stored summarizations are requested only for
        a note id; a successful response becomes the history. */
    method Load(response: Option<seq<Stored>>, timeOf: string -> string) returns (requested: bool)
      modifies this
      ensures requested <==> noteId != []
      ensures history == (if requested && response.Some? then HistoryOf(response.value, timeOf) else old(history))
      ensures userInput == old(userInput) && hasFile == old(hasFile) && lastGenerated == old(lastGenerated)
      ensures prefs == old(prefs) && options == old(options)
    {
      requested := noteId != [];
      if requested && response.Some? {
        history := BuildHistory(response.value, timeOf);
      }
    }

    /** `handleSubmit`, with the model's reply given. Blank input changes
        nothing and sends nothing. Otherwise the input is recorded as a user
        entry, the input and the file are cleared, the prompt quoting the
        input is sent, and one assistant entry follows: the summary (which
        also becomes the one to save) or the error entry. The clock is read
        twice: `sentAt` stamps the user entry, `repliedAt` the reply. */
    method Submit(reply: Option<string>, sentAt: string, repliedAt: string) returns (prompt: Option<string>)
      modifies this
      ensures IsBlank(old(userInput)) ==>
        && prompt == None && history == old(history) && userInput == old(userInput)
        && hasFile == old(hasFile) && lastGenerated == old(lastGenerated)
      ensures !IsBlank(old(userInput)) ==>
        && prompt == Some(SummaryPrompt(options, prefs, old(userInput)))
        && userInput == [] && !hasFile
        && history == old(history) + [UserMessage(old(userInput), sentAt), ReplyMessage(reply, repliedAt)]
        && lastGenerated == (if reply.Some? then Some(Generated(old(userInput), reply.value)) else old(lastGenerated))
      ensures prefs == old(prefs) && options == old(options)
    {
      if IsBlank(userInput) {
        return None;
      }
      var input := userInput;
      history := history + [UserMessage(input, sentAt), ReplyMessage(reply, repliedAt)];
      userInput := [];
      hasFile := false;
      if reply.Some? {
        lastGenerated := Some(Generated(input, reply.value));
      }
      prompt := Some(SummaryPrompt(options, prefs, input));
    }

    /** `handleSave`: without a summary to save nothing is sent; once the
        request completes the summary is no longer pending; a request that
        threw keeps it. */
    method Save(threw: bool) returns (sent: Option<Generated>)
      modifies this
      ensures sent == old(lastGenerated)
      ensures lastGenerated == (if old(lastGenerated).Some? && !threw then None else old(lastGenerated))
      ensures userInput == old(userInput) && hasFile == old(hasFile) && history == old(history)
      ensures prefs == old(prefs) && options == old(options)
    {
      sent := lastGenerated;
      if lastGenerated.None? {
        return;
      }
      if !threw {
        lastGenerated := None;
      }
    }

    /** `setUserInput`, the setter the page hands to the input panel: the
        panel's typing, extraction and clearing all arrive here. */
    method SetUserInput(text: string)
      modifies this
      ensures userInput == text
      ensures hasFile == old(hasFile) && history == old(history) && lastGenerated == old(lastGenerated)
      ensures prefs == old(prefs) && options == old(options)
    {
      userInput := text;
    }

    /** `setFile`, the other setter handed to the panel: whether a file is
        attached. */
    method SetFile(attached: bool)
      modifies this
      ensures hasFile == attached
      ensures userInput == old(userInput) && history == old(history) && lastGenerated == old(lastGenerated)
      ensures prefs == old(prefs) && options == old(options)
    {
      hasFile := attached;
    }

    /** One of the panel's three option selects: `{ ...prev, [key]: value }`. */
    method OptionChange(key: OptionKey, value: string)
      modifies this
      ensures options == match key
        case Length => old(options).(length := value)
        case Format => old(options).(format := value)
        case Focus => old(options).(focus := value)
      ensures userInput == old(userInput) && hasFile == old(hasFile) && history == old(history)
      ensures lastGenerated == old(lastGenerated) && prefs == old(prefs)
    {
      match key
      case Length => options := options.(length := value);
      case Format => options := options.(format := value);
      case Focus => options := options.(focus := value);
    }

    /** `handlePlanUpdate`: the preferences the plan monitor reports. */
    method PlanUpdate(p: AgentPlan.Preferences)
      modifies this
      ensures prefs == p
      ensures userInput == old(userInput) && hasFile == old(hasFile) && history == old(history)
      ensures lastGenerated == old(lastGenerated) && options == old(options)
    {
      prefs := p;
    }
  }
}
